=== FILE: README.md ===
# Auction marketplace core in Dafny

This project models the core of an auction marketplace backend: NestJS
services over TypeORM repositories and a Bull job queue.

- **Lots** are created by a seller in status `pending`. A delayed
  `changeLotStatus` job moves a lot to `in_process` at `startAt`. A delayed
  `closelot` job moves it to `closed` at `endAt`. A lot can be edited or
  deleted only while it is `pending`. An edit re-adds the job of each date it
  sends, even when the value is unchanged. A delete removes both jobs.
- **Jobs** are keyed by the text `name-id-ownerId`. `addJob` first removes
  whatever sits under the key, so one lot never holds two jobs of one kind.
  A job whose data lacks an id or an owner gets no key.
- **Bids** are admitted on an `in_process` lot from anyone but its owner, and
  only above the lot's `currentPrice`. The bid keeps the previous price as
  its snapshot and becomes the lot's new price.
- **Orders** can be placed only by the leading bidder of a closed lot, for the
  leading bid. Each bid gets at most one order, through the unique `bidId`
  column. An order moves `pending` → `sent` (by the lot's owner) →
  `delivered` (by the winner), and each step queues a mail job.

The model is functional:

- The database is a `Store` of maps from primary key to row, plus
  auto-increment counters.
- The queue is a `Registry` of keyed and unkeyed jobs.
- Every service call is a function from a store to a `Result`. Its error
  cases are datatype values named after the exception the service throws.
- Prices are integer cents. Times are integer milliseconds. The current time
  is a parameter.
- `Lifecycle` puts every request and every job run together as a state
  machine. It proves an invariant over any sequence of steps.

Files:

- `wrappers.dfy`: `Option`.
- `models.dfy`: the entities.
- `errors.dfy`: the exceptions.
- `job_keys.dfy`: the job id text and its parser.
- `queue.dfy`: `QueueService`.
- `store.dfy`: the repositories, partial saves and pagination.
- `consumer.dfy`: `AuctionFlowConsumer`.
- `cron.dfy`: `TasksService`.
- `lots.dfy`, `bids.dfy`, `orders.dfy`: the three services.
- `lifecycle.dfy`: the whole system.

## Model

| member | source | states |
|---|---|---|
| JobKeys.IntTextRoundTrip | src/modules/tasks/queue.service.ts:16 | Reading back the decimal text that a template string gives any integer, negative ones included, returns that integer. |
| JobKeys.JobIdRoundTrip | src/modules/tasks/queue.service.ts:16 | A job id `name-id-ownerId` splits back into its name, lot id and owner id, whenever the name has no '-'. |
| JobKeys.JobIdInjective | src/modules/tasks/queue.service.ts:16 | Two different (name, id, ownerId) triples never share a job id, so replacing by id affects only the one job meant. |
| Queue.GetJobId | src/modules/tasks/queue.service.ts:15-18 | There is a key exactly when both the id and the owner id are truthy (non-zero), and the key is the id text of the action and those two numbers. |
| Queue.KeyOfInjective | src/modules/tasks/queue.service.ts:15-18 | Two jobs share a key only when they agree on action, lot and owner. |
| Queue.RemoveJob | src/modules/tasks/queue.service.ts:46-53 | With no key, or a key the queue does not hold, nothing changes. Otherwise exactly that key disappears, and every other job is kept as it was. |
| Queue.AddJob | src/modules/tasks/queue.service.ts:20-33 | A keyed job replaces whatever sat under its key, with 5 attempts unless the options say otherwise, and every other job is kept. A job without a key is appended. |
| Queue.AtMostOneJob | src/modules/tasks/queue.service.ts:25-33 | In a well-keyed registry, a lot has at most one job per action and owner. |
| Queue.AddJobKeepsWellKeyed | src/modules/tasks/queue.service.ts:25-33 | `addJob` keeps every keyed job under its own id, and never leaves a job that has an id among the unkeyed ones. |
| Queue.RemoveJobKeepsWellKeyed | src/modules/tasks/queue.service.ts:46-53 | `removeJob` keeps the registry well keyed. |
| Queue.AddJobLeavesExactlyOne | src/modules/tasks/queue.service.ts:25-33 | After `addJob` of a keyed job, the queue holds exactly one job for that action, lot and owner: the new one. |
| Queue.AddJobTwiceReplaces | src/modules/tasks/queue.service.ts:25-33 | Adding two jobs under the same key leaves the same queue as adding only the second. |
| Queue.RepeatedAddJobNeverDuplicates | src/modules/tasks/queue.service.ts:25-33 | However many times a job is re-added for one lot, at most one job for it is ever pending. |
| Queue.RemoveJobLeavesNone | src/modules/tasks/queue.service.ts:46-53 | Removing a lot's job by its own id leaves no job of that action for the lot. |
| Store.SaveStatus | src/modules/lot/lot.service.ts:176-178 | A partial save `{id, status}` changes the status of that one lot. It changes no other field and no other lot, and it never creates a row. |
| Store.Paginate | src/modules/lot/lot.service.ts:107-115 | A page has at most `limit` rows. They are rows `limit*(page-1)` onwards, in order. A short page is the last one. |
| Store.Filter | src/modules/lot/lot.service.ts:110-111 | Every kept row passes the `where` test and comes from the input, and every passing row of the input is kept. |
| Store.FilterCounts | src/modules/lot/lot.service.ts:110-111 | A passing row is kept exactly as many times as it occurs in the input, and a failing row never is. |
| Store.FilterKeepsOrder | src/modules/lot/lot.service.ts:110-111 | The kept rows are a subsequence of the input: the `where` drops rows but does not reorder them. |
| Consumer.ProcessLotStatus | src/modules/tasks/queue.consumer.ts:14-19 | The job's lot becomes `in_process`. No other lot changes, and no other field of that lot changes. |
| Consumer.CloseLot | src/modules/tasks/queue.consumer.ts:21-26 | The job's lot becomes `closed`. No other lot changes, and no other field of that lot changes. |
| Consumer.Dispatch | src/modules/tasks/queue.consumer.ts:14-26 | Running any job changes at most one lot's status, and never sends a lot back to `pending`. |
| Consumer.CloseLotIdempotent | src/modules/tasks/queue.consumer.ts:21-26 | A closing job that runs twice leaves the same lots as running it once. |
| Consumer.ActivationReopensClosedLot | src/modules/tasks/queue.consumer.ts:14-19 | Activation has no status guard: it turns a closed lot back to `in_process` and keeps its price. |
| Cron.CronNameInjective | src/modules/tasks/tasks.service.ts:19 | Distinct (lot, owner) pairs get distinct cron names. |
| Cron.ScheduleChangeStatus | src/modules/tasks/tasks.service.ts:18-35 | After scheduling, the lot's name holds the new job for the given time. Every other name keeps its job. |
| Cron.Fire | src/modules/tasks/tasks.service.ts:21-24 | The callback sets the lot's status to `in_process`, and touches nothing else. |
| Cron.ScheduleLeavesExactlyOne | src/modules/tasks/tasks.service.ts:26-31 | After scheduling, the lot has exactly one registered cron job, and every job stays under its own name. |
| Cron.ScheduleKeepsOtherLots | src/modules/tasks/tasks.service.ts:26-31 | Scheduling one lot never replaces another lot's job. |
| Cron.RescheduleReplaces | src/modules/tasks/tasks.service.ts:26-31 | Scheduling a lot twice leaves the same registry as scheduling it once with the second time. |
| Lots.Validate | src/modules/lot/lot.service.ts:180-198 | A lot passes if and only if its estimated price is at least its current price, it starts no earlier than now, and it ends no earlier than it starts. Otherwise the error is the first rule broken, in that order. |
| Lots.ValidateLot | src/modules/lot/lot.service.ts:200-214 | An edit or delete is allowed if and only if the lot exists, belongs to the caller and is `pending`. The errors are 404, 403 and 422, in that order. |
| Lots.ScheduleBoth | src/modules/lot/lot.service.ts:35-42 | A lot with a key gets its activation job at `startAt` and its closing job at `endAt`, and all other jobs stay. |
| Lots.CreateOne | src/modules/lot/lot.service.ts:28-49 | Creation succeeds if and only if the payload is valid. The new lot gets a fresh id, the caller as owner and status `pending`, and both its jobs are queued. Every failure is a validation error. |
| Lots.KeysOfActionsDiffer | src/modules/lot/lot.service.ts:37-42 | A lot's activation job and closing job never share an id, so adding one never removes the other. |
| Lots.Merge | src/modules/lot/lot.service.ts:58 | A merged lot keeps its id, owner, status and currency. Each field the payload carries overrides the stored one. |
| Lots.MergeLaws | src/modules/lot/lot.service.ts:58 | An empty payload changes nothing, merging is idempotent, and a date the payload leaves out keeps its stored value. |
| Lots.Reschedule | src/modules/lot/lot.service.ts:64-76 | A job is re-added only for a date the payload sends, and it fires at the new date. A date left out leaves its job as it was, and no dates leaves the queue unchanged. |
| Lots.UpdateOne | src/modules/lot/lot.service.ts:51-83 | An update succeeds if and only if the caller may edit the lot and the merged lot is valid. The errors are 404, 403 and validation. On success only that lot's row and its rescheduled jobs change. |
| Lots.DeleteOne | src/modules/lot/lot.service.ts:85-105 | A delete succeeds if and only if the lot exists, is the caller's and is `pending`. It removes the row and both of the lot's jobs, and nothing else. |
| Lots.GetAll | src/modules/lot/lot.service.ts:107-115 | Item `i` of page `page` is open lot number `limit*(page-1)+i` of the table, so a page skips the `limit*(page-1)` open lots before it. A page holds at most `limit` lots, and a shorter page reaches the end of the open lots. |
| Lots.OpenLotIsOnSomePage | src/modules/lot/lot.service.ts:107-115 | Every `in_process` lot appears on some page. |
| Bids.ValidateLot | src/modules/bid/bid.service.ts:115-137 | A bid passes if and only if the lot exists, the bidder is not its owner, the lot is `in_process`, and the price is strictly above the current price. Otherwise the errors are 404, 403, 422 (status) and 422 (price), in that order. |
| Bids.ValidateLotAsWritten | src/modules/bid/bid.service.ts:116-118 | As written, a missing lot fails with a server error, because the message reads `lot.id` from the missing lot. Otherwise the check accepts exactly what `ValidateLot` accepts. |
| Bids.MissingLotIsServerError | src/modules/bid/bid.service.ts:116-118 | A bid on a lot that does not exist gets a server error from the check as written, and a 404 from the corrected `CreateOne`. |
| Bids.CreateOne | src/modules/bid/bid.service.ts:26-54 | A bid is admitted if and only if `validateLot` passes. Failures carry its error. The bid stores the caller, the lot, the proposed price and the lot's previous price, and the lot's price becomes the proposed one. Nothing else in the store changes. |
| Bids.BidAtEstimateKeepsLotOpen | src/modules/bid/bid.service.ts:35-48 | A bid that reaches the estimated price is admitted and leaves the lot `in_process`: there is no early close. |
| Bids.PricesStrictlyIncrease | src/modules/bid/bid.service.ts:42-48 | For any sequence of bids admitted on one lot, the prices rise strictly. Each bid's snapshot is the previous bid's price (the first one's is the starting price), and the lot ends at the last price. |
| Bids.DeleteOne | src/modules/bid/bid.service.ts:56-74 | A delete succeeds if and only if the lot exists, is not the caller's, is `in_process` and has an estimated price above its current price. The foreign key from orders is not checked; see "## Left out". Every failure is the one 422 of the catch. Only the bid row goes, and the lot's price stays. |
| Bids.DeleteIgnoresBidOwnerAndLot | src/modules/bid/bid.service.ts:66-69 | Deletion never looks at the bid: a bid of another user, or on another lot, is deleted just the same. |
| Bids.BidsOfLot | src/modules/bid/bid.service.ts:96-97 | The listed bids are all of the lot and come from the table, and every bid of the lot in the table is listed. |
| Bids.BidsOfLotCounts | src/modules/bid/bid.service.ts:96-97 | Each bid of the lot is listed exactly as often as it is stored, and a bid of another lot never is. |
| Bids.BidsOfLotKeepsOrder | src/modules/bid/bid.service.ts:96-97 | The lot's bids are listed in the order the rows are read. |
| Bids.PageOfLot | src/modules/bid/bid.service.ts:92-100 | Item `i` of page `page` is bid number `limit*(page-1)+i` among the lot's bids, in table order. A page holds at most `limit` rows, all of the requested lot, and a shorter page reaches the end of the lot's bids. |
| Bids.GetAll | src/modules/bid/bid.service.ts:76-113 | A missing lot is a 404. Otherwise the listing is returned if and only if the caller owns the lot, or the lot is `in_process`, or it is closed and a bid on the returned page is the caller's; every refusal is a 403. A served listing is the lot with exactly the requested page of its bids. |
| Bids.GetAllAccess | src/modules/bid/bid.service.ts:88-110 | The owner is always served, and so is anyone while the lot is `in_process`. Anyone else is refused a pending lot. For a closed lot, another user is refused if and only if none of the bids on the requested page is theirs, so a bidder whose bids sit on other pages is refused. |
| Orders.SaveOrder | src/db/models/order.entity.ts:22-23 | A save succeeds if and only if no other row holds the same bid. It writes the row under its id and keeps the rest. |
| Orders.Validate | src/modules/order/order.service.ts:151-175 | An order passes if and only if the lot exists, it has bids, the caller placed the leading bid, the body names that bid, and the lot is closed. The errors are 404, 404, 403, 400 and 422, in that order. |
| Orders.CreateOne | src/modules/order/order.service.ts:29-51 | Creation succeeds if and only if validation passes and no other order holds the bid; once validation has passed, every failure is the catch's 422. The order is `pending` under a fresh id, and a `newOrder` mail job is queued. |
| Orders.OrderGoesToHighestBidder | src/modules/order/order.service.ts:151-175 | A created order is for a closed lot, by the caller, for a bid on that lot that is at least as high as every other bid on the lot. |
| Orders.WinnerOrdersOnce | src/modules/order/order.service.ts:37-50 | The leading bidder of a closed lot can order once, and a second order for the same bid is refused. |
| Orders.WithBid | src/modules/order/order.service.ts:58 | The order is found with its bid exactly when both rows exist. |
| Orders.ValidateOrder | src/modules/order/order.service.ts:177-191 | An edit or delete is allowed if and only if the order exists, the caller placed its bid, and it is `pending`. The errors are 404, 403 and 422, in that order. |
| Orders.MergeOrder | src/modules/order/order.service.ts:62-64 | The merged order takes the body's id and any delivery fields the body sends. It keeps its bid and status. |
| Orders.UpdateOne | src/modules/order/order.service.ts:53-77 | A failed `validateOrder` passes its error through. While bids are unique, an update succeeds if and only if `validateOrder` passes. The merged order is written under its id, an `updatedOrder` mail job is queued, and nothing else changes. |
| Orders.DeleteOne | src/modules/order/order.service.ts:79-93 | A delete succeeds if and only if `validateOrder` passes, and it removes only that order. |
| Orders.ViewOf | src/modules/order/order.service.ts:135-143 | An order is loaded with its bid and the bid's lot exactly when all three rows exist. |
| Orders.FirstOrderOf | src/modules/order/order.service.ts:135-143 | The result is an order whose bid is on the lot (the model picks the lowest id), and it is nothing exactly when the lot has no order. |
| Orders.GetOne | src/modules/order/order.service.ts:134-149 | When the lot has an order, it is shown if and only if the caller is the winner or the lot's owner, and every other caller gets a 403. There is a 404 exactly when the lot has no order. |
| Orders.GetOneAsWritten | src/modules/order/order.service.ts:145 | As written, a lot with no order gives a server error, because `order.bid` is read from `undefined`. |
| Orders.NoOrderIsServerError | src/modules/order/order.service.ts:145 | For a lot without an order, the query as written ends in a server error, and the corrected `GetOne` answers 404. |
| Orders.ValidateStatusChange | src/modules/order/order.service.ts:193-213 | A change is allowed if and only if the lot's owner moves a pending order to `sent`, or the winner moves a sent order to `delivered`. Every refusal names both statuses. |
| Orders.StatusAdvancesOneStep | src/modules/order/order.service.ts:198-208 | Every allowed change moves the order exactly one step forward. A delivered order never changes, and nothing returns to `pending`. |
| Orders.StepBelongsToOneParty | src/modules/order/order.service.ts:198-208 | Only the lot's owner can ship, and only the winner can confirm delivery. |
| Orders.TemplateFor | src/modules/order/order.service.ts:108-117 | `sent` mails `sentOrder`, `delivered` mails `deliveredOrder`, and `pending` has no template. |
| Orders.ChangeStatus | src/modules/order/order.service.ts:95-132 | Errors of the lookup pass through, and a step `validateStatusChange` refuses returns its 422. On success, the step was allowed and moves one rank forward. The order takes the body's id and status, a mail job with the matching template is queued, and nothing else changes. |
| Orders.StatusChangeTouchesOnlyItsOrder | src/modules/order/order.service.ts:104-106 | A body naming another order's id is refused by the unique bid column. A body naming the found order changes only its status. |
| Lifecycle.CreateLotKeepsInv | src/modules/lot/lot.service.ts:28-49 | Creating a lot keeps the system invariant. |
| Lifecycle.UpdateLotKeepsInv | src/modules/lot/lot.service.ts:51-83 | Editing a lot keeps the system invariant. |
| Lifecycle.DeleteLotKeepsInv | src/modules/lot/lot.service.ts:85-105 | Deleting a lot keeps the system invariant. |
| Lifecycle.PlaceBidKeepsInv | src/modules/bid/bid.service.ts:26-54 | Admitting a bid keeps the system invariant, including rising prices per lot. |
| Lifecycle.WithdrawBidKeepsInv | src/modules/bid/bid.service.ts:56-74 | Deleting a bid keeps the system invariant. |
| Lifecycle.CreateOrderKeepsInv | src/modules/order/order.service.ts:29-51 | Creating an order keeps the system invariant. |
| Lifecycle.UpdateOrderKeepsInv | src/modules/order/order.service.ts:53-77 | Editing an order keeps the system invariant. |
| Lifecycle.DeleteOrderKeepsInv | src/modules/order/order.service.ts:79-93 | Deleting an order keeps the system invariant. |
| Lifecycle.ChangeOrderStatusKeepsInv | src/modules/order/order.service.ts:95-132 | Changing an order's status keeps the system invariant. |
| Lifecycle.RunJobKeepsInv | src/modules/tasks/queue.consumer.ts:14-26 | Running a queued lot job, and dropping it from the queue, keeps the system invariant. |
| Lifecycle.StepKeepsInv | src/modules/tasks/queue.service.ts:20-53 | Any request of a signed-in user, and any job run, keeps the system invariant. |
| Lifecycle.RunKeepsInv | src/modules/tasks/queue.service.ts:20-53 | The invariant holds after any sequence of such steps. |
| Lifecycle.LotJobsOnlyForOwner | src/modules/tasks/queue.service.ts:15-33 | Under the invariant, a lot has at most one job per action, only for its own owner, and a lot that does not exist has none. |
| Lifecycle.CreatedLotHasBothJobs | src/modules/lot/lot.service.ts:35-42 | A newly created lot has exactly one activation job and one closing job. |
| Lifecycle.DeletedLotNeverScheduledAgain | src/modules/lot/lot.service.ts:90-98 | Once a lot is deleted, no later sequence of steps gives it a job again. |
| Lifecycle.LotWithBidsIsFrozen | src/modules/lot/lot.service.ts:200-214 | A lot with a bid on it can be neither edited nor deleted, by anyone. |
| Lifecycle.WinnerIsLatestBid | src/modules/order/order.service.ts:156-164 | The bid an order must name, the leading one in the ranking, is the most recent bid on the lot. |

## Left out

- HTTP routing, authentication and guards are left out. The caller's user id is a parameter. The `ValidationPipe` whitelist (src/main.ts:10) is reflected only in the payload types, which carry just the declared fields.
- Mail delivery, websockets and logging are left out. An `orderMail` job carries the lot id and the caller's id, so it is keyed as `orderMail-lotId-ownerId` when both are non-zero. A later mail for the same lot and caller replaces a pending one, in the model as in the source. A `RunJob` step may run such a job: it is dropped from the queue and leaves the lots alone. No modelled consumer handles `orderMail`. The only queue processor in these sources is `AuctionFlowConsumer` (src/modules/tasks/queue.consumer.ts), and it has no handler for that name.
- Bull's timers, retries and worker concurrency are left out. A job runs when a `RunJob` step names it and is then dropped, while Bull keeps completed jobs. The un-awaited `queue.add` and `removeJob` calls are taken to finish in program order.
- Clock reads are left out. `Date.now()` and `new Date()` become one `now` parameter per call.
- `decimal(10,2)` columns and their float transformer become integer cents, with no range limit.
- `createdAt`, title and description lengths, and the other DTO field constraints are left out.
- `LotService.getMy` and `getOneLotWithBids` are not part of this model; they are query helpers outside the lifecycle.
- `Orders.CreateOne` takes the ranked bids of the lot as a parameter (`ranked`). The source reads them from `getLotWinner`, which is not part of this model. The lemmas about the winner assume `ranked` is exactly the lot's bids, highest price first.
- src/modules/tasks/job-types.ts is not part of this model. The job names are taken as `changeLotStatus`, `closelot` and `orderMail`. The proofs use only that they are distinct and contain no '-'.
- `isFirstDateLater` (src/common/validations) is not part of this model. It is taken as a strict "later than", so a start equal to now, or an end equal to the start, is accepted.
- Orders.FirstOrderOf: the `findOne` of `getOne` has no ORDER BY, so which order of a lot comes back is up to the database. The model picks the lowest id.
- Lots.GetAll, Bids.PageOfLot: the `find` calls (src/modules/lot/lot.service.ts:110-114, src/modules/bid/bid.service.ts:96-100) have no ORDER BY, so the database does not promise the row order, nor that separate page queries see one stable order. The model reads rows in one fixed table order. `Lots.OpenLotIsOnSomePage` relies on that order.
- Bids.DeleteOne: `orders.bidId` is a foreign key (`@OneToOne` with `@JoinColumn`, src/db/models/order.entity.ts:34-36). Deleting a bid that an order references therefore fails in the database and lands in the catch as the 422. The model does not check this foreign key, so its "succeeds if and only if" leaves that case out. An order can outlive its bid in the model: `Lifecycle.Inv` does not require every order's bid to exist.
- Database failures are left out, apart from the unique `bidId` of orders, which `SaveOrder` models. A partial save `{id, status}` of a missing id is taken to change nothing.
- `Cron` (`TasksService`) has no caller in the services and is not a step of `Lifecycle.Run`.
- The TODOs in the source, such as closing early at the estimated price or repricing after a bid is deleted, are not implemented there, and the model does not add them.

## Findings

| source | as written | input that shows it | evidently intended | confidence | as-written member | corrected member |
|---|---|---|---|---|---|---|
| src/modules/bid/bid.service.ts:116-118 | The not-found message interpolates `lot.id` of a lot that is `undefined`, so the check throws a TypeError (HTTP 500) in `createOne` | `createOne` with a `lotId` that has no row | HTTP 404 "Not found lot", as `getAll` (line 85) builds it from `lotId` | high; not executed | Bids.ValidateLotAsWritten, Bids.MissingLotIsServerError | Bids.ValidateLot, Bids.CreateOne |
| src/modules/order/order.service.ts:134-149 | `getOne` reads `order.bid.ownerId` without checking that an order was found, so a lot without an order throws a TypeError (HTTP 500), and the not-found branch of `validateStatusChange` (lines 194-196) is never reached | `changeStatus` or `getOne` for a lot that has no order | HTTP 404 "Not found order", as `validateStatusChange` is written to report | high; not executed | Orders.GetOneAsWritten, Orders.NoOrderIsServerError | Orders.GetOne, Orders.ChangeStatus |

=== FILE: bids.dfy ===
/** `BidService`: admitting bids on an open lot, deleting them, and listing a
    lot's bids. An admitted bid keeps a snapshot of the lot's price before it
    and becomes the lot's new `currentPrice`. */
module Bids {
  import opened Wrappers
  import opened Models
  import opened Errors
  import opened Store

  /** Statuses in which a lot takes no bids. */
  const NOT_ALLOWED_STATUSES := {Pending, Closed}

  /** `validateLot`: the lot exists, the bidder does not own it, it is open,
      and the price beats the current one, checked in that order. */
  function ValidateLot(lot: Option<Lot>, ownerId: int, proposedPrice: int): (r: Outcome)
    ensures r.Pass? <==>
      && lot.Some? && ownerId != lot.value.ownerId && lot.value.status == InProcess
      && proposedPrice > lot.value.currentPrice
    ensures lot.None? ==> r == Fail(NotFound(LotMissing))
    ensures lot.Some? && ownerId == lot.value.ownerId ==> r == Fail(Forbidden)
    ensures lot.Some? && ownerId != lot.value.ownerId && lot.value.status != InProcess
            ==> r == Fail(Validation(LotNotBiddable(lot.value.status)))
    ensures lot.Some? && ownerId != lot.value.ownerId && lot.value.status == InProcess
            && proposedPrice <= lot.value.currentPrice
            ==> r == Fail(Validation(ProposedNotAbove))
  {
    if lot.None? then Fail(NotFound(LotMissing))
    else if ownerId == lot.value.ownerId then Fail(Forbidden)
    else if lot.value.status in NOT_ALLOWED_STATUSES then Fail(Validation(LotNotBiddable(lot.value.status)))
    else
      assert lot.value.status == InProcess;
      if proposedPrice <= lot.value.currentPrice then Fail(Validation(ProposedNotAbove)) else Pass
  }

  /** `validateLot` as written: the message for a missing lot reads `lot.id`
      from the missing lot, which throws a TypeError before the
      NotFoundException exists. */
  function ValidateLotAsWritten(lot: Option<Lot>, ownerId: int, proposedPrice: int): (r: Outcome)
    ensures lot.None? ==> r == Fail(Internal)
    ensures r.Pass? <==>
      && lot.Some? && ownerId != lot.value.ownerId && lot.value.status == InProcess
      && proposedPrice > lot.value.currentPrice
  {
    if lot.None? then Fail(Internal) else ValidateLot(lot, ownerId, proposedPrice)
  }

  /** A bid on a lot that does not exist: the check as written fails with a
      server error, the corrected one (used by `CreateOne`) answers 404. */
  lemma MissingLotIsServerError(st: Store, ownerId: int, lotId: int, proposedPrice: int)
    requires lotId !in st.lots
    ensures ValidateLotAsWritten(Find(st.lots, lotId), ownerId, proposedPrice) == Fail(Internal)
    ensures CreateOne(st, ownerId, lotId, proposedPrice) == Err(NotFound(LotMissing))
  {
  }

  /** `createOne`: validate, save the bid with the lot's price as its
      snapshot, then save the lot with the bid as its price. */
  function CreateOne(st: Store, ownerId: int, lotId: int, proposedPrice: int): (r: Result<(Store, Bid)>)
    ensures r.Ok? <==>
      && lotId in st.lots && ownerId != st.lots[lotId].ownerId
      && st.lots[lotId].status == InProcess && proposedPrice > st.lots[lotId].currentPrice
    ensures lotId in st.lots && ownerId == st.lots[lotId].ownerId ==> r == Err(Forbidden)
    ensures r.Err? ==> r.error == ValidateLot(Find(st.lots, lotId), ownerId, proposedPrice).error
    ensures r.Ok? ==>
      var lot := st.lots[lotId];
      && r.value.1 == Bid(st.nextBidId, ownerId, lotId, proposedPrice, lot.currentPrice)
      && r.value.0.lots == st.lots[lot.id := lot.(currentPrice := proposedPrice)]
      && r.value.0.bids == st.bids[st.nextBidId := r.value.1]
      && r.value.0 == st.(lots := r.value.0.lots, bids := r.value.0.bids, nextBidId := st.nextBidId + 1)
    ensures r.Ok? && Valid(st) ==>
      && r.value.1.id !in st.bids
      && r.value.0.lots == st.lots[lotId := st.lots[lotId].(currentPrice := proposedPrice)]
      && Valid(r.value.0)
  {
    var found := Find(st.lots, lotId);
    match ValidateLot(found, ownerId, proposedPrice)
    case Fail(e) => Err(e)
    case Pass =>
      var lot := found.value;
      var bid := Bid(st.nextBidId, ownerId, lotId, proposedPrice, lot.currentPrice);
      Ok((st.(lots := st.lots[lot.id := lot.(currentPrice := proposedPrice)],
              bids := st.bids[bid.id := bid],
              nextBidId := st.nextBidId + 1), bid))
  }

  /** The estimated price plays no part in admission: a bid equal to it is
      admitted and the lot stays open. */
  lemma BidAtEstimateKeepsLotOpen(st: Store, ownerId: int, lotId: int)
    requires Valid(st)
    requires lotId in st.lots && ownerId != st.lots[lotId].ownerId
    requires st.lots[lotId].status == InProcess
    requires st.lots[lotId].currentPrice < st.lots[lotId].estimetedPrice
    ensures var r := CreateOne(st, ownerId, lotId, st.lots[lotId].estimetedPrice);
            && r.Ok?
            && r.value.0.lots[lotId].status == InProcess
            && r.value.0.lots[lotId].currentPrice == st.lots[lotId].estimetedPrice
  {
  }

  /** A bid offered by one user at one price. */
  datatype Offer = Offer(ownerId: int, proposedPrice: int)

  /** Offers the bids one after the other to the same lot; fails at the
      first refusal. */
  function PlaceAll(st: Store, lotId: int, offers: seq<Offer>): Result<(Store, seq<Bid>)>
    decreases |offers|
  {
    if |offers| == 0 then Ok((st, []))
    else
      match CreateOne(st, offers[0].ownerId, lotId, offers[0].proposedPrice)
      case Err(e) => Err(e)
      case Ok((st1, bid)) =>
        match PlaceAll(st1, lotId, offers[1..])
        case Err(e) => Err(e)
        case Ok((st2, bids)) => Ok((st2, [bid] + bids))
  }

  /** Over any run of admitted bids on one lot, proposed prices strictly
      increase, each bid's snapshot is the price of the bid before it (the
      first one's is the lot's starting price), and the lot ends at the price
      of the last bid. */
  lemma {:induction false} PricesStrictlyIncrease(st: Store, lotId: int, offers: seq<Offer>)
    requires Valid(st) && lotId in st.lots
    requires PlaceAll(st, lotId, offers).Ok?
    ensures var (st', bids) := PlaceAll(st, lotId, offers).value;
      && |bids| == |offers|
      && lotId in st'.lots
      && (forall i :: 0 <= i < |bids| ==> bids[i].proposedPrice > st.lots[lotId].currentPrice)
      && (forall i, j :: 0 <= i < j < |bids| ==> bids[i].proposedPrice < bids[j].proposedPrice)
      && (|bids| > 0 ==> bids[0].currentPrice == st.lots[lotId].currentPrice)
      && (forall i :: 0 < i < |bids| ==> bids[i].currentPrice == bids[i - 1].proposedPrice)
      && st'.lots[lotId].currentPrice
         == (if |bids| == 0 then st.lots[lotId].currentPrice else bids[|bids| - 1].proposedPrice)
      && Valid(st')
    decreases |offers|
  {
    if |offers| > 0 {
      var first := CreateOne(st, offers[0].ownerId, lotId, offers[0].proposedPrice);
      var (st1, bid) := first.value;
      assert st1.lots[lotId].currentPrice == bid.proposedPrice;
      PricesStrictlyIncrease(st1, lotId, offers[1..]);
      var (st2, rest) := PlaceAll(st1, lotId, offers[1..]).value;
      var bids := [bid] + rest;
      assert PlaceAll(st, lotId, offers).value == (st2, bids);
      forall i, j | 0 <= i < j < |bids|
        ensures bids[i].proposedPrice < bids[j].proposedPrice
      {
        if i > 0 {
          assert bids[i] == rest[i - 1] && bids[j] == rest[j - 1];
        } else {
          assert bids[j] == rest[j - 1];
        }
      }
      forall i | 0 < i < |bids|
        ensures bids[i].currentPrice == bids[i - 1].proposedPrice
      {
        if i > 1 {
          assert bids[i] == rest[i - 1] && bids[i - 1] == rest[i - 2];
        }
      }
    }
  }

  /** `deleteOne`: the same checks as admission with the lot's estimated
      price in place of a proposal; every failure, a missing lot included, is
      reported as one validation error. The bid is removed by id alone. */
  function DeleteOne(st: Store, ownerId: int, lotId: int, id: int): (r: Result<Store>)
    ensures r.Ok? <==>
      && lotId in st.lots && ownerId != st.lots[lotId].ownerId
      && st.lots[lotId].status == InProcess
      && st.lots[lotId].estimetedPrice > st.lots[lotId].currentPrice
    ensures r.Err? ==> r.error == Validation(BidNotDeletable)
    ensures r.Ok? ==> r.value == st.(bids := st.bids - {id})
  {
    var found := Find(st.lots, lotId);
    if found.None? then Err(Validation(BidNotDeletable))
    else
      match ValidateLot(found, ownerId, found.value.estimetedPrice)
      case Fail(_) => Err(Validation(BidNotDeletable))
      case Pass => Ok(st.(bids := st.bids - {id}))
  }

  /** Deletion never looks at the bid itself: a bid of someone else, or of
      another lot, is removed just the same, and the lot's price stays. */
  lemma DeleteIgnoresBidOwnerAndLot(st: Store, ownerId: int, lotId: int, id: int)
    requires lotId in st.lots && ownerId != st.lots[lotId].ownerId
    requires st.lots[lotId].status == InProcess
    requires st.lots[lotId].estimetedPrice > st.lots[lotId].currentPrice
    requires id in st.bids && st.bids[id].ownerId != ownerId && st.bids[id].lotId != lotId
    ensures DeleteOne(st, ownerId, lotId, id).Ok?
    ensures id !in DeleteOne(st, ownerId, lotId, id).value.bids
    ensures DeleteOne(st, ownerId, lotId, id).value.lots == st.lots
  {
  }

  predicate OnLot(lotId: int, bid: Bid) {
    bid.lotId == lotId
  }

  /** The bids of one lot, in table order. */
  function BidsOfLot(rows: seq<Bid>, lotId: int): (r: seq<Bid>)
    ensures forall i :: 0 <= i < |r| ==> r[i].lotId == lotId && r[i] in rows
    ensures forall b :: b in rows && b.lotId == lotId ==> b in r
  {
    Filter(rows, (b: Bid) => OnLot(lotId, b))
  }

  /** The lot's bids are listed in the order they are stored. */
  lemma BidsOfLotKeepsOrder(rows: seq<Bid>, lotId: int)
    ensures SubsequenceOf(BidsOfLot(rows, lotId), rows)
  {
    FilterKeepsOrder(rows, (b: Bid) => OnLot(lotId, b));
  }

  /** The lot's bids are listed each exactly as often as they are stored. */
  lemma BidsOfLotCounts(rows: seq<Bid>, lotId: int)
    ensures forall b :: multiset(BidsOfLot(rows, lotId))[b] == (if b.lotId == lotId then multiset(rows)[b] else 0)
  {
    FilterCountsAll(rows, (b: Bid) => OnLot(lotId, b));
  }

  /** `find({ where: { lotId }, skip, take })`: one page of the lot's bids,
      in table order. */
  function PageOfLot(rows: seq<Bid>, lotId: int, page: int, limit: int): (r: seq<Bid>)
    requires page >= 1 && limit >= 1
    ensures |r| <= limit
    ensures forall i :: 0 <= i < |r| ==> r[i].lotId == lotId && r[i] in rows
    ensures |r| == 0 || limit * (page - 1) + |r| <= |BidsOfLot(rows, lotId)|
    ensures forall i :: 0 <= i < |r| ==> r[i] == BidsOfLot(rows, lotId)[limit * (page - 1) + i]
    ensures |r| < limit ==> limit * (page - 1) + |r| >= |BidsOfLot(rows, lotId)|
  {
    Paginate(BidsOfLot(rows, lotId), page, limit)
  }

  predicate HasBidBy(bids: seq<Bid>, userId: int) {
    exists i :: 0 <= i < |bids| && bids[i].ownerId == userId
  }

  /** Whether the caller may see the lot with the given page of its bids:
      its owner always, anyone while it is in process, and after it closes
      only a user with a bid on that page. */
  predicate MaySee(lot: Lot, userId: int, bids: seq<Bid>) {
    || lot.ownerId == userId
    || lot.status == InProcess
    || (lot.status == Closed && HasBidBy(bids, userId))
  }

  /** `getAll`: one page of the lot's bids. Anyone but the owner is refused a
      pending lot, and a closed lot unless one of the bids on the returned
      page is theirs. */
  function GetAll(lot: Option<Lot>, rows: seq<Bid>, ownerId: int, lotId: int, page: int, limit: int)
    : (r: Result<(Lot, seq<Bid>)>)
    requires page >= 1 && limit >= 1
    ensures lot.None? ==> r == Err(NotFound(LotMissing))
    ensures r.Ok? <==> lot.Some? && MaySee(lot.value, ownerId, PageOfLot(rows, lotId, page, limit))
    ensures r.Err? && lot.Some? ==> r.error == Forbidden
    ensures r.Ok? ==>
      && r.value.0 == lot.value
      && r.value.1 == PageOfLot(rows, lotId, page, limit)
      && |r.value.1| <= limit
      && (forall i :: 0 <= i < |r.value.1| ==> r.value.1[i].lotId == lotId && r.value.1[i] in rows)
  {
    if lot.None? then Err(NotFound(LotMissing))
    else if lot.value.ownerId != ownerId && lot.value.status == Pending then Err(Forbidden)
    else
      var bids := PageOfLot(rows, lotId, page, limit);
      if lot.value.ownerId != ownerId && lot.value.status == Closed && !HasBidBy(bids, ownerId) then Err(Forbidden)
      else Ok((lot.value, bids))
  }

  /** Who can list a lot's bids: its owner always; anyone while it is in
      process; nobody else while it is pending; and once it is closed, another
      user exactly when one of the bids on the requested page is theirs, so a
      bidder whose bids sit on other pages is refused. */
  lemma GetAllAccess(lot: Lot, rows: seq<Bid>, ownerId: int, lotId: int, page: int, limit: int)
    requires page >= 1 && limit >= 1
    ensures lot.ownerId == ownerId ==> GetAll(Some(lot), rows, ownerId, lotId, page, limit).Ok?
    ensures lot.ownerId != ownerId && lot.status == Pending ==>
              GetAll(Some(lot), rows, ownerId, lotId, page, limit) == Err(Forbidden)
    ensures lot.status == InProcess ==> GetAll(Some(lot), rows, ownerId, lotId, page, limit).Ok?
    ensures lot.ownerId != ownerId && lot.status == Closed ==>
              (GetAll(Some(lot), rows, ownerId, lotId, page, limit) == Err(Forbidden)
               <==> !HasBidBy(PageOfLot(rows, lotId, page, limit), ownerId))
  {
  }
}

=== FILE: consumer.dfy ===
/** `AuctionFlowConsumer`: the handlers the queue runs when a lot's job fires.
    Each one saves `{ id, status }` for the lot named by the job, and nothing
    else; neither looks at the status the lot has before. */
module Consumer {
  import opened Models
  import opened Queue
  import opened Store

  /** `after` differs from `before` in lot statuses at most. */
  ghost predicate OnlyStatusChanged(before: map<int, Lot>, after: map<int, Lot>) {
    && after.Keys == before.Keys
    && forall k :: k in before ==> after[k] == before[k].(status := after[k].status)
  }

  /** `processLotStatus`: the lot of the job becomes `in_process`. */
  function ProcessLotStatus(lots: map<int, Lot>, job: Job): (r: map<int, Lot>)
    ensures r.Keys == lots.Keys
    ensures job.data.id in lots ==> r[job.data.id].status == InProcess
    ensures OnlyStatusChanged(lots, r)
    ensures forall k :: k in lots && k != job.data.id ==> r[k] == lots[k]
  {
    SaveStatus(lots, job.data.id, InProcess)
  }

  /** `closeLot`: the lot of the job becomes `closed`. */
  function CloseLot(lots: map<int, Lot>, job: Job): (r: map<int, Lot>)
    ensures r.Keys == lots.Keys
    ensures job.data.id in lots ==> r[job.data.id].status == Closed
    ensures OnlyStatusChanged(lots, r)
    ensures forall k :: k in lots && k != job.data.id ==> r[k] == lots[k]
  {
    SaveStatus(lots, job.data.id, Closed)
  }

  /** Runs the handler registered for the job's name. This consumer has no
      handler for `orderMail`; running such a job leaves the lots alone (the
      mail itself is not modelled). */
  function Dispatch(lots: map<int, Lot>, job: Job): (r: map<int, Lot>)
    ensures OnlyStatusChanged(lots, r)
    ensures forall k :: k in lots && k != job.data.id ==> r[k] == lots[k]
    ensures forall k :: k in r ==> r[k].status == lots[k].status || r[k].status != Pending
  {
    match job.action
    case ChangeLotStatus => ProcessLotStatus(lots, job)
    case CloseLot => CloseLot(lots, job)
    case OrderMail => lots
  }

  /** Closing twice leaves the same lots as closing once. */
  lemma CloseLotIdempotent(lots: map<int, Lot>, job: Job)
    ensures CloseLot(CloseLot(lots, job), job) == CloseLot(lots, job)
  {
  }

  /** Activation has no guard on the current status: a closed lot that gets
      its activation job afterwards is open again. Status monotonicity is
      therefore not a property of the handlers alone. */
  lemma ActivationReopensClosedLot(lots: map<int, Lot>, job: Job)
    requires job.data.id in lots && lots[job.data.id].status == Closed
    ensures ProcessLotStatus(lots, job)[job.data.id].status == InProcess
    ensures ProcessLotStatus(lots, job)[job.data.id].currentPrice == lots[job.data.id].currentPrice
  {
  }
}

=== FILE: cron.dfy ===
/** `TasksService`: the cron-based alternative to the queue. A lot's
    activation is registered under the name `changeStatus-id-ownerId`; a job
    already registered under that name is deleted first. Unlike the queue's
    `getJobID`, the name is built even when `id` or `ownerId` is zero. */
module Cron {
  import opened Models
  import opened Store
  import JobKeys

  /** A registered cron job: when it fires and which lot it activates. */
  datatype CronJob = CronJob(fireAt: int, lotId: int, ownerId: int)

  type CronRegistry = map<string, CronJob>

  function CronName(id: int, ownerId: int): string {
    JobKeys.JobIdText("changeStatus", id, ownerId)
  }

  /** Distinct lots (or owners) get distinct names. */
  lemma CronNameInjective(id1: int, o1: int, id2: int, o2: int)
    requires CronName(id1, o1) == CronName(id2, o2)
    ensures id1 == id2 && o1 == o2
  {
    var name := "changeStatus";
    assert forall k :: 0 <= k < |name| ==> name[k] != '-';
    JobKeys.JobIdInjective(name, id1, o1, name, id2, o2);
  }

  /** `scheduleChangeStatus`: delete the job of that name if present, then
      register the new one. */
  function ScheduleChangeStatus(reg: CronRegistry, time: int, id: int, ownerId: int): (r: CronRegistry)
    ensures r.Keys == reg.Keys + {CronName(id, ownerId)}
    ensures r[CronName(id, ownerId)] == CronJob(time, id, ownerId)
    ensures forall n :: n in reg && n != CronName(id, ownerId) ==> r[n] == reg[n]
  {
    var name := CronName(id, ownerId);
    var cleared := if name in reg then map n | n in reg && n != name :: reg[n] else reg;
    cleared[name := CronJob(time, id, ownerId)]
  }

  /** The callback of the job: `repo.save({ id, status: in_process })`. */
  function Fire(lots: map<int, Lot>, job: CronJob): (r: map<int, Lot>)
    ensures r.Keys == lots.Keys
    ensures job.lotId in lots ==> r[job.lotId] == lots[job.lotId].(status := InProcess)
    ensures forall k :: k in lots && k != job.lotId ==> r[k] == lots[k]
  {
    SaveStatus(lots, job.lotId, InProcess)
  }

  /** Every job sits under the name of its own lot and owner. */
  ghost predicate WellNamed(reg: CronRegistry) {
    forall n :: n in reg ==> n == CronName(reg[n].lotId, reg[n].ownerId)
  }

  /** Names of the jobs registered for one lot and owner. */
  function JobsFor(reg: CronRegistry, id: int, ownerId: int): set<string> {
    set n | n in reg && reg[n].lotId == id && reg[n].ownerId == ownerId
  }

  /** After scheduling, exactly one job is registered for the lot and owner,
      it fires at the requested time, and the registry stays well named. */
  lemma ScheduleLeavesExactlyOne(reg: CronRegistry, time: int, id: int, ownerId: int)
    requires WellNamed(reg)
    ensures var r := ScheduleChangeStatus(reg, time, id, ownerId);
            && WellNamed(r)
            && JobsFor(r, id, ownerId) == {CronName(id, ownerId)}
            && r[CronName(id, ownerId)].fireAt == time
  {
    var r := ScheduleChangeStatus(reg, time, id, ownerId);
    var name := CronName(id, ownerId);
    forall n | n in JobsFor(r, id, ownerId)
      ensures n == name
    {
    }
  }

  /** Scheduling one lot never touches the job of another lot or owner. */
  lemma ScheduleKeepsOtherLots(reg: CronRegistry, time: int, id: int, ownerId: int, id2: int, o2: int)
    requires id != id2 || ownerId != o2
    requires CronName(id2, o2) in reg
    ensures ScheduleChangeStatus(reg, time, id, ownerId)[CronName(id2, o2)] == reg[CronName(id2, o2)]
  {
    if CronName(id2, o2) == CronName(id, ownerId) {
      CronNameInjective(id2, o2, id, ownerId);
    }
  }

  /** Rescheduling replaces the earlier registration outright. */
  lemma RescheduleReplaces(reg: CronRegistry, t1: int, t2: int, id: int, ownerId: int)
    ensures ScheduleChangeStatus(ScheduleChangeStatus(reg, t1, id, ownerId), t2, id, ownerId)
            == ScheduleChangeStatus(reg, t2, id, ownerId)
  {
  }
}

=== FILE: errors.dfy ===
/** The exceptions the services throw, as data. */
module Errors {
  import opened Models

  /** What a NotFoundException reports as missing. */
  datatype Missing = LotMissing | BidsMissing | OrderMissing

  /** The message of a ValidationException (HTTP 422). */
  datatype Reason =
    | EstimatedBelowCurrent
    | StartInPast
    | EndBeforeStart
    | LotLocked(lotStatus: LotStatus)
    | LotNotBiddable(biddingStatus: LotStatus)
    | ProposedNotAbove
    | BidNotDeletable
    | OrderLotNotClosed
    | OrderNotEditable(orderStatus: OrderStatus)
    | SwitchRefused(from: OrderStatus, to: OrderStatus)
    | OrderNotCreatable
    | OrderNotUpdatable
    | StatusNotChangeable

  datatype Error =
    | NotFound(what: Missing)
    | Forbidden
    | BadRequest
    | Validation(reason: Reason)
      /** A TypeError thrown by the service itself (HTTP 500). */
    | Internal

  /** A check that either passes or throws the first violated rule. */
  datatype Outcome = Pass | Fail(error: Error)

  /** A service call that either returns a value or throws. */
  datatype Result<+T> = Ok(value: T) | Err(error: Error)
}

=== FILE: job_keys.dfy ===
/** The text of a job id, `name-id-ownerId`, built with a JavaScript template
    string, together with a parser that recovers the three parts. The round
    trip shows that two different (name, id, ownerId) triples never share an id,
    which the replace-on-reschedule logic of the queue relies on. */
module JobKeys {
  import opened Wrappers

  predicate IsDigit(c: char) {
    '0' <= c <= '9'
  }

  predicate AllDigits(s: string) {
    forall i :: 0 <= i < |s| ==> IsDigit(s[i])
  }

  function DigitChar(d: nat): (c: char)
    requires d < 10
    ensures IsDigit(c)
    ensures c as int - '0' as int == d
  {
    ('0' as int + d) as char
  }

  /** Decimal text of a natural number: digits only, no leading zeros. */
  function Dec(n: nat): (s: string)
    ensures |s| > 0
    ensures AllDigits(s)
    decreases n
  {
    if n < 10 then [DigitChar(n)] else Dec(n / 10) + [DigitChar(n % 10)]
  }

  /** How JavaScript renders an integer number inside a template string. */
  function IntText(x: int): string {
    if x < 0 then "-" + Dec(-x) else Dec(x)
  }

  /** The id of a job, as `getJobID` writes it once both numbers are present. */
  function JobIdText(name: string, id: int, ownerId: int): string {
    name + "-" + IntText(id) + "-" + IntText(ownerId)
  }

  /** Value of a run of decimal digits, read left to right. */
  function DigitsValue(s: string): nat
    requires AllDigits(s)
  {
    if |s| == 0 then 0 else DigitsValue(s[..|s| - 1]) * 10 + (s[|s| - 1] as int - '0' as int)
  }

  /** Reads an optional minus sign followed by at least one digit. */
  function ParseInt(s: string): Option<int> {
    if |s| > 0 && s[0] == '-' then
      if |s| > 1 && AllDigits(s[1..]) then var v: int := DigitsValue(s[1..]); Some(-v) else None
    else if |s| > 0 && AllDigits(s) then Some(DigitsValue(s))
    else None
  }

  /** Position of the first `c` in `s`, or `|s|` when there is none. */
  function IndexOf(s: string, c: char): (i: nat)
    ensures i <= |s|
    ensures i < |s| ==> s[i] == c
    ensures forall j :: 0 <= j < i ==> s[j] != c
  {
    if |s| == 0 then 0 else if s[0] == c then 0 else 1 + IndexOf(s[1..], c)
  }

  /** Splits `id-ownerId`: the first number is an optional sign and the digits
      up to the next '-', the rest is the second number. */
  function ParseIdPair(t: string): Option<(int, int)> {
    var start := if |t| > 0 && t[0] == '-' then 1 else 0;
    var j := start + IndexOf(t[start..], '-');
    if j == |t| then None
    else
      match (ParseInt(t[..j]), ParseInt(t[j + 1..]))
      case (Some(a), Some(b)) => Some((a, b))
      case _ => None
  }

  /** Splits a job id back into its name, lot id and owner id; the name ends at
      the first '-'. */
  function ParseJobId(s: string): Option<(string, int, int)> {
    var i := IndexOf(s, '-');
    if i == |s| then None
    else
      match ParseIdPair(s[i + 1..])
      case Some((a, b)) => Some((s[..i], a, b))
      case None => None
  }

  lemma {:induction false} DecValue(n: nat)
    ensures DigitsValue(Dec(n)) == n
    decreases n
  {
    if n >= 10 {
      var p := Dec(n / 10);
      var s := p + [DigitChar(n % 10)];
      assert s[..|s| - 1] == p;
      DecValue(n / 10);
    }
  }

  /** Reading back the text of any integer gives that integer. */
  lemma IntTextRoundTrip(x: int)
    ensures ParseInt(IntText(x)) == Some(x)
  {
    if x < 0 {
      var s := "-" + Dec(-x);
      assert s[1..] == Dec(-x);
      DecValue(-x);
    } else {
      DecValue(x);
    }
  }

  lemma {:induction false} IndexOfAfterPrefix(p: string, c: char, q: string)
    requires forall k :: 0 <= k < |p| ==> p[k] != c
    ensures IndexOf(p + [c] + q, c) == |p|
    decreases |p|
  {
    if |p| > 0 {
      assert (p + [c] + q)[1..] == p[1..] + [c] + q;
      IndexOfAfterPrefix(p[1..], c, q);
    }
  }

  /** The sign-and-digits part of `IntText(a) + "-" + rest` ends exactly where
      the text of `a` ends. */
  lemma SplitAfterInt(a: int, rest: string)
    ensures var t := IntText(a) + "-" + rest;
            var start := if |t| > 0 && t[0] == '-' then 1 else 0;
            start + IndexOf(t[start..], '-') == |IntText(a)|
  {
    var t := IntText(a) + "-" + rest;
    var d := Dec(if a < 0 then -a else a);
    if a < 0 {
      assert t[0] == '-';
      assert t[1..] == d + "-" + rest;
    } else {
      assert t[0] == d[0] && IsDigit(d[0]);
      assert t[0..] == d + "-" + rest;
    }
    IndexOfAfterPrefix(d, '-', rest);
  }

  lemma IdPairRoundTrip(a: int, b: int)
    ensures ParseIdPair(IntText(a) + "-" + IntText(b)) == Some((a, b))
  {
    var t := IntText(a) + "-" + IntText(b);
    SplitAfterInt(a, IntText(b));
    var j := |IntText(a)|;
    assert t[..j] == IntText(a);
    assert t[j + 1..] == IntText(b);
    IntTextRoundTrip(a);
    IntTextRoundTrip(b);
  }

  /** Parsing the id of a job gives back its name, lot id and owner id, for
      every name that contains no '-'. */
  lemma JobIdRoundTrip(name: string, id: int, ownerId: int)
    requires forall k :: 0 <= k < |name| ==> name[k] != '-'
    ensures ParseJobId(JobIdText(name, id, ownerId)) == Some((name, id, ownerId))
  {
    var rest := IntText(id) + "-" + IntText(ownerId);
    assert JobIdText(name, id, ownerId) == name + ['-'] + rest;
    SplitAtName(name, rest);
    IdPairRoundTrip(id, ownerId);
  }

  /** A name free of '-', a '-' and a tail: the first '-' is the one after the name. */
  lemma SplitAtName(name: string, rest: string)
    requires forall k :: 0 <= k < |name| ==> name[k] != '-'
    ensures var s := name + ['-'] + rest;
            IndexOf(s, '-') == |name| && s[..|name|] == name && s[|name| + 1..] == rest
  {
    var s := name + ['-'] + rest;
    IndexOfAfterPrefix(name, '-', rest);
    assert s[..|name|] == name;
    assert s[|name| + 1..] == rest;
  }

  /** Distinct triples give distinct job ids (names free of '-'). */
  lemma JobIdInjective(n1: string, a1: int, b1: int, n2: string, a2: int, b2: int)
    requires forall k :: 0 <= k < |n1| ==> n1[k] != '-'
    requires forall k :: 0 <= k < |n2| ==> n2[k] != '-'
    requires JobIdText(n1, a1, b1) == JobIdText(n2, a2, b2)
    ensures n1 == n2 && a1 == a2 && b1 == b2
  {
    JobIdRoundTrip(n1, a1, b1);
    JobIdRoundTrip(n2, a2, b2);
  }
}

=== FILE: lifecycle.dfy ===
/** The whole backend as a state machine: every request an authenticated user
    can send and every lot job the queue can run is a step on the store. The
    invariant collected here holds in the empty store and after any sequence
    of steps, and it yields the lifecycle guarantees: a lot has at most one
    pending job per action, a deleted lot never gets a job again, a lot that
    has bids can no longer be edited or deleted, and its price is at least
    every bid on it. */
module Lifecycle {
  import opened Wrappers
  import opened Models
  import opened Queue
  import opened Store
  import Consumer
  import Lots
  import Bids
  import Orders

  /** Every lot job names a lot that exists, with that lot's owner, and lot
      jobs always have an id. */
  ghost predicate LotJobsTracked(st: Store) {
    && (forall k :: k in st.jobs.keyed && st.jobs.keyed[k].action.IsLotAction() ==>
          && st.jobs.keyed[k].data.id in st.lots
          && st.lots[st.jobs.keyed[k].data.id].ownerId == st.jobs.keyed[k].data.ownerId)
    && (forall i :: 0 <= i < |st.jobs.unkeyed| ==> !st.jobs.unkeyed[i].action.IsLotAction())
  }

  /** Lots belong to authenticated users, whose ids are positive. */
  ghost predicate OwnersKnown(st: Store) {
    forall id :: id in st.lots ==> st.lots[id].ownerId > 0
  }

  /** Every bid is on a lot that still exists and has left `pending`, and
      that lot's price is at least the bid. */
  ghost predicate BidsOnLiveLots(st: Store) {
    forall b :: b in st.bids ==>
      && st.bids[b].lotId in st.lots
      && st.lots[st.bids[b].lotId].status != Pending
      && st.bids[b].proposedPrice <= st.lots[st.bids[b].lotId].currentPrice
  }

  /** On any one lot, a later bid always proposes more than an earlier one. */
  ghost predicate BidsRise(st: Store) {
    forall a, b :: a in st.bids && b in st.bids && a < b && st.bids[a].lotId == st.bids[b].lotId ==>
      st.bids[a].proposedPrice < st.bids[b].proposedPrice
  }

  ghost predicate Inv(st: Store) {
    && Valid(st)
    && WellKeyed(st.jobs)
    && OwnersKnown(st)
    && LotJobsTracked(st)
    && BidsOnLiveLots(st)
    && BidsRise(st)
    && Orders.UniqueBids(st.orders)
  }

  lemma EmptyInv()
    ensures Inv(Empty)
  {
  }

  /** A request of a user (`caller`), or the queue running the job stored
      under `key`. */
  datatype Op =
    | CreateLot(caller: int, create: Lots.LotCreate, now: int)
    | UpdateLot(caller: int, lotId: int, update: Lots.LotUpdate, now: int)
    | DeleteLot(caller: int, lotId: int)
    | PlaceBid(caller: int, lotId: int, proposedPrice: int)
    | WithdrawBid(caller: int, lotId: int, bidId: int)
    | CreateOrder(caller: int, lotId: int, order: Orders.OrderCreate, ranked: seq<Bid>)
    | UpdateOrder(caller: int, lotId: int, change: Orders.OrderUpdate)
    | DeleteOrder(caller: int, change: Orders.OrderUpdate)
    | ChangeOrderStatus(caller: int, lotId: int, status: Orders.StatusChange)
    | RunJob(key: string)
  {
    /** Requests come from signed-in users; jobs run on their own. */
    predicate Authenticated() {
      RunJob? || caller > 0
    }
  }

  /** The store after one step; a refused request leaves it as it was. */
  function Step(st: Store, op: Op): Store {
    match op
    case CreateLot(u, p, now) =>
      (match Lots.CreateOne(st, u, p, now) case Ok((s, _)) => s case Err(_) => st)
    case UpdateLot(u, id, p, now) =>
      (match Lots.UpdateOne(st, u, id, p, now) case Ok((s, _)) => s case Err(_) => st)
    case DeleteLot(u, id) =>
      (match Lots.DeleteOne(st, u, id) case Ok(s) => s case Err(_) => st)
    case PlaceBid(u, lotId, price) =>
      (match Bids.CreateOne(st, u, lotId, price) case Ok((s, _)) => s case Err(_) => st)
    case WithdrawBid(u, lotId, id) =>
      (match Bids.DeleteOne(st, u, lotId, id) case Ok(s) => s case Err(_) => st)
    case CreateOrder(u, lotId, body, ranked) =>
      (match Orders.CreateOne(st, u, lotId, body, ranked) case Ok((s, _)) => s case Err(_) => st)
    case UpdateOrder(u, lotId, body) =>
      (match Orders.UpdateOne(st, u, lotId, body) case Ok((s, _)) => s case Err(_) => st)
    case DeleteOrder(u, body) =>
      (match Orders.DeleteOne(st, u, body) case Ok(s) => s case Err(_) => st)
    case ChangeOrderStatus(u, lotId, body) =>
      (match Orders.ChangeStatus(st, u, lotId, body) case Ok((s, _)) => s case Err(_) => st)
    case RunJob(key) =>
      if key in st.jobs.keyed then
        st.(lots := Consumer.Dispatch(st.lots, st.jobs.keyed[key]), jobs := RemoveJob(st.jobs, Some(key)))
      else st
  }

  function Run(st: Store, ops: seq<Op>): Store
    decreases |ops|
  {
    if |ops| == 0 then st else Run(Step(st, ops[0]), ops[1..])
  }

  ghost predicate AllAuthenticated(ops: seq<Op>) {
    forall i :: 0 <= i < |ops| ==> ops[i].Authenticated()
  }

  /** Jobs whose data is a lot of the store, under their own ids. */
  lemma ScheduleBothKeepsWellKeyed(jobs: Registry, lot: Lot, now: int)
    requires WellKeyed(jobs)
    ensures WellKeyed(Lots.ScheduleBoth(jobs, lot, now))
  {
    var activate := AddJob(jobs, ChangeLotStatus, Lots.LotJob(lot), Lots.DelayUntil(lot.startAt, now));
    AddJobKeepsWellKeyed(jobs, ChangeLotStatus, Lots.LotJob(lot), Lots.DelayUntil(lot.startAt, now));
    AddJobKeepsWellKeyed(activate, CloseLot, Lots.LotJob(lot), Lots.DelayUntil(lot.endAt, now));
  }

  /** Saving `lot` under its id, as a new lot or over a lot of the same
      owner, keeps the lot jobs tracked when each job under a changed id is
      either the old one or a job of `lot`. */
  lemma SaveLotKeepsTracked(st: Store, st': Store, lot: Lot, changed: set<string>)
    requires LotJobsTracked(st)
    requires lot.id in st.lots ==> st.lots[lot.id].ownerId == lot.ownerId
    requires st'.lots == st.lots[lot.id := lot]
    requires Lots.JobsKeptExcept(st.jobs, st'.jobs, changed)
    requires forall k :: k in changed && k in st'.jobs.keyed ==>
               (k in st.jobs.keyed && st'.jobs.keyed[k] == st.jobs.keyed[k]) || st'.jobs.keyed[k].data == Lots.LotJob(lot)
    ensures LotJobsTracked(st')
  {
    forall k | k in st'.jobs.keyed && st'.jobs.keyed[k].action.IsLotAction()
      ensures st'.jobs.keyed[k].data.id in st'.lots
      ensures st'.lots[st'.jobs.keyed[k].data.id].ownerId == st'.jobs.keyed[k].data.ownerId
    {
      if k !in changed {
        assert st'.jobs.keyed[k] == st.jobs.keyed[k];
      }
    }
  }

  /** Adding a lot that no bid can name keeps the bid facts. */
  lemma NewLotKeepsBids(st: Store, st': Store, lot: Lot)
    requires BidsOnLiveLots(st) && BidsRise(st)
    requires lot.id !in st.lots
    requires st'.lots == st.lots[lot.id := lot] && st'.bids == st.bids
    ensures BidsOnLiveLots(st') && BidsRise(st')
  {
  }

  /** Rewriting a pending lot, which no bid can name, keeps the bid facts. */
  lemma PendingLotKeepsBids(st: Store, st': Store, lot: Lot)
    requires BidsOnLiveLots(st) && BidsRise(st)
    requires lot.id in st.lots && st.lots[lot.id].status == Pending
    requires st'.lots == st.lots[lot.id := lot] && st'.bids == st.bids
    ensures BidsOnLiveLots(st') && BidsRise(st')
  {
  }

  lemma RescheduleKeepsWellKeyed(jobs: Registry, m: Lot, p: Lots.LotUpdate, now: int)
    requires WellKeyed(jobs)
    ensures WellKeyed(Lots.Reschedule(jobs, m, p, now))
  {
    var j1 := if p.startAt.Some? then AddJob(jobs, ChangeLotStatus, Lots.LotJob(m), Lots.DelayUntil(m.startAt, now))
              else jobs;
    if p.startAt.Some? {
      AddJobKeepsWellKeyed(jobs, ChangeLotStatus, Lots.LotJob(m), Lots.DelayUntil(m.startAt, now));
    }
    if p.endAt.Some? {
      AddJobKeepsWellKeyed(j1, CloseLot, Lots.LotJob(m), Lots.DelayUntil(m.endAt, now));
    }
  }

  /** `Reschedule` writes only the lot's two ids: each is either kept or
      holds a job of that lot. */
  lemma RescheduleWritesLot(jobs: Registry, m: Lot, p: Lots.LotUpdate, now: int)
    requires m.id != 0 && m.ownerId != 0
    ensures var r := Lots.Reschedule(jobs, m, p, now);
            var changed := {KeyOf(ChangeLotStatus, m.id, m.ownerId), KeyOf(CloseLot, m.id, m.ownerId)};
            && Lots.JobsKeptExcept(jobs, r, changed)
            && forall k :: k in changed && k in r.keyed ==>
                 (k in jobs.keyed && r.keyed[k] == jobs.keyed[k]) || r.keyed[k].data == Lots.LotJob(m)
  {
    var r := Lots.Reschedule(jobs, m, p, now);
    if p.startAt.Some? {
      assert Lots.Scheduled(r, m, ChangeLotStatus, m.startAt, now);
    }
    if p.endAt.Some? {
      assert Lots.Scheduled(r, m, CloseLot, m.endAt, now);
    }
  }

  lemma CreateLotStep(st: Store, u: int, p: Lots.LotCreate, now: int)
    ensures var r := Lots.CreateOne(st, u, p, now);
            Step(st, CreateLot(u, p, now)) == if r.Ok? then r.value.0 else st
  {
  }

  /** `ScheduleBoth` writes only the lot's two ids, and only jobs of that lot. */
  lemma ScheduleBothWritesLot(jobs: Registry, lot: Lot, now: int)
    requires lot.id != 0 && lot.ownerId != 0
    ensures var r := Lots.ScheduleBoth(jobs, lot, now);
            var changed := {KeyOf(ChangeLotStatus, lot.id, lot.ownerId), KeyOf(CloseLot, lot.id, lot.ownerId)};
            && Lots.JobsKeptExcept(jobs, r, changed)
            && forall k :: k in changed && k in r.keyed ==> r.keyed[k].data == Lots.LotJob(lot)
  {
    var r := Lots.ScheduleBoth(jobs, lot, now);
    assert Lots.Scheduled(r, lot, ChangeLotStatus, lot.startAt, now);
    assert Lots.Scheduled(r, lot, CloseLot, lot.endAt, now);
  }

  /** A new lot with both its jobs keeps the queue well keyed and tracked. */
  lemma NewLotKeepsJobs(st: Store, st': Store, lot: Lot, now: int)
    requires WellKeyed(st.jobs) && LotJobsTracked(st)
    requires lot.id != 0 && lot.ownerId != 0 && lot.id !in st.lots
    requires st'.lots == st.lots[lot.id := lot]
    requires st'.jobs == Lots.ScheduleBoth(st.jobs, lot, now)
    ensures WellKeyed(st'.jobs) && LotJobsTracked(st')
  {
    ScheduleBothKeepsWellKeyed(st.jobs, lot, now);
    ScheduleBothWritesLot(st.jobs, lot, now);
    SaveLotKeepsTracked(st, st', lot, {KeyOf(ChangeLotStatus, lot.id, lot.ownerId), KeyOf(CloseLot, lot.id, lot.ownerId)});
  }

  /** The shape of the store after a successful `createOne`. */
  ghost predicate Created(st: Store, st': Store, lot: Lot, now: int) {
    && lot.id != 0 && lot.ownerId > 0 && lot.id !in st.lots
    && st' == st.(lots := st.lots[lot.id := lot], jobs := Lots.ScheduleBoth(st.jobs, lot, now),
                  nextLotId := st'.nextLotId)
    && Valid(st')
  }

  lemma CreatedShape(st: Store, u: int, p: Lots.LotCreate, now: int)
    requires Valid(st) && u > 0
    requires Lots.CreateOne(st, u, p, now).Ok?
    ensures var (st', lot) := Lots.CreateOne(st, u, p, now).value;
            Created(st, st', lot, now)
  {
  }

  lemma CreatedLotKeepsInv(st: Store, st': Store, lot: Lot, now: int)
    requires Inv(st) && Created(st, st', lot, now)
    ensures Inv(st')
  {
    NewLotKeepsJobs(st, st', lot, now);
    NewLotKeepsBids(st, st', lot);
  }

  lemma CreateLotKeepsInv(st: Store, u: int, p: Lots.LotCreate, now: int)
    requires Inv(st) && u > 0
    ensures Inv(Step(st, CreateLot(u, p, now)))
  {
    var r := Lots.CreateOne(st, u, p, now);
    CreateLotStep(st, u, p, now);
    if r.Ok? {
      CreatedShape(st, u, p, now);
      CreatedLotKeepsInv(st, r.value.0, r.value.1, now);
    }
  }

  /** The shape of the store after a successful `updateOne`. */
  ghost predicate Rewritten(st: Store, st': Store, m: Lot, p: Lots.LotUpdate, now: int) {
    && m.id in st.lots && st.lots[m.id].status == Pending && st.lots[m.id].ownerId == m.ownerId
    && st' == st.(lots := st.lots[m.id := m], jobs := Lots.Reschedule(st.jobs, m, p, now))
  }

  lemma RewrittenLotKeepsValid(st: Store, st': Store, m: Lot, p: Lots.LotUpdate, now: int)
    requires Valid(st) && OwnersKnown(st) && Rewritten(st, st', m, p, now)
    ensures Valid(st') && OwnersKnown(st') && m.id != 0 && m.ownerId != 0
  {
  }

  lemma RewrittenLotKeepsJobs(st: Store, st': Store, m: Lot, p: Lots.LotUpdate, now: int)
    requires WellKeyed(st.jobs) && LotJobsTracked(st)
    requires m.id != 0 && m.ownerId != 0 && Rewritten(st, st', m, p, now)
    ensures WellKeyed(st'.jobs) && LotJobsTracked(st')
  {
    RescheduleKeepsWellKeyed(st.jobs, m, p, now);
    RescheduleWritesLot(st.jobs, m, p, now);
    SaveLotKeepsTracked(st, st', m, {KeyOf(ChangeLotStatus, m.id, m.ownerId), KeyOf(CloseLot, m.id, m.ownerId)});
  }

  /** A pending lot rewritten in place, with its jobs rescheduled, keeps the
      invariant. */
  lemma RewrittenLotKeepsInv(st: Store, st': Store, m: Lot, p: Lots.LotUpdate, now: int)
    requires Inv(st) && Rewritten(st, st', m, p, now)
    ensures Inv(st')
  {
    RewrittenLotKeepsValid(st, st', m, p, now);
    RewrittenLotKeepsJobs(st, st', m, p, now);
    PendingLotKeepsBids(st, st', m);
  }

  lemma UpdateLotKeepsInv(st: Store, u: int, id: int, p: Lots.LotUpdate, now: int)
    requires Inv(st) && u > 0
    ensures Inv(Step(st, UpdateLot(u, id, p, now)))
  {
    var r := Lots.UpdateOne(st, u, id, p, now);
    if r.Ok? {
      var (st', m) := r.value;
      RewrittenLotKeepsInv(st, st', m, p, now);
    }
  }

  /** The keyed lot jobs of lot `id` are stored under its two job ids. */
  lemma LotJobKey(st: Store, k: string)
    requires Inv(st)
    requires k in st.jobs.keyed && st.jobs.keyed[k].action.IsLotAction()
    ensures var job := st.jobs.keyed[k];
            var lot := st.lots[job.data.id];
            k == KeyOf(ChangeLotStatus, lot.id, lot.ownerId) || k == KeyOf(CloseLot, lot.id, lot.ownerId)
  {
    var job := st.jobs.keyed[k];
    assert GetJobId(job.action, job.data) == Some(k);
  }

  /** The shape of the store after a successful lot `deleteOne`: a pending
      lot gone together with the jobs under both of its ids. */
  ghost predicate Removed(st: Store, st': Store, id: int) {
    && id in st.lots && st.lots[id].status == Pending
    && st' == st.(lots := st.lots - {id}, jobs := st'.jobs)
    && var lot := st.lots[id];
       var changed := {KeyOf(ChangeLotStatus, lot.id, lot.ownerId), KeyOf(CloseLot, lot.id, lot.ownerId)};
       && (forall k :: k in changed ==> k !in st'.jobs.keyed)
       && Lots.JobsKeptExcept(st.jobs, st'.jobs, changed)
  }

  lemma RemovedLotKeepsJobs(st: Store, st': Store, id: int)
    requires Inv(st) && Removed(st, st', id)
    ensures Valid(st') && OwnersKnown(st') && WellKeyed(st'.jobs) && LotJobsTracked(st')
  {
    forall k | k in st'.jobs.keyed
      ensures k in st.jobs.keyed && st'.jobs.keyed[k] == st.jobs.keyed[k]
    {
    }
    forall k | k in st'.jobs.keyed && st'.jobs.keyed[k].action.IsLotAction()
      ensures st'.jobs.keyed[k].data.id in st'.lots
      ensures st'.lots[st'.jobs.keyed[k].data.id].ownerId == st'.jobs.keyed[k].data.ownerId
    {
      LotJobKey(st, k);
    }
  }

  lemma RemovedLotKeepsInv(st: Store, st': Store, id: int)
    requires Inv(st) && Removed(st, st', id)
    ensures Inv(st')
  {
    RemovedLotKeepsJobs(st, st', id);
  }

  lemma DeleteLotKeepsInv(st: Store, u: int, id: int)
    requires Inv(st) && u > 0
    ensures Inv(Step(st, DeleteLot(u, id)))
  {
    var r := Lots.DeleteOne(st, u, id);
    if r.Ok? {
      RemovedLotKeepsInv(st, r.value, id);
    }
  }

  /** The shape of the store after a successful bid `createOne`. */
  ghost predicate Bidded(st: Store, st': Store, bid: Bid) {
    && bid.lotId in st.lots
    && var lot := st.lots[bid.lotId];
       && lot.status == InProcess && bid.proposedPrice > lot.currentPrice
       && bid.id == st.nextBidId
       && st' == st.(lots := st.lots[bid.lotId := lot.(currentPrice := bid.proposedPrice)],
                     bids := st.bids[bid.id := bid], nextBidId := st.nextBidId + 1)
  }

  lemma NewBidKeepsJobs(st: Store, st': Store, bid: Bid)
    requires Inv(st) && Bidded(st, st', bid)
    ensures Valid(st') && OwnersKnown(st') && WellKeyed(st'.jobs) && LotJobsTracked(st')
  {
  }

  lemma NewBidKeepsBids(st: Store, st': Store, bid: Bid)
    requires Inv(st) && Bidded(st, st', bid)
    ensures BidsOnLiveLots(st') && BidsRise(st')
  {
    forall a, b | a in st'.bids && b in st'.bids && a < b && st'.bids[a].lotId == st'.bids[b].lotId
      ensures st'.bids[a].proposedPrice < st'.bids[b].proposedPrice
    {
      if b == bid.id {
        assert a in st.bids;
      }
    }
  }

  lemma PlaceBidKeepsInv(st: Store, u: int, lotId: int, price: int)
    requires Inv(st) && u > 0
    ensures Inv(Step(st, PlaceBid(u, lotId, price)))
  {
    var r := Bids.CreateOne(st, u, lotId, price);
    if r.Ok? {
      var (st', bid) := r.value;
      assert Bidded(st, st', bid);
      NewBidKeepsJobs(st, st', bid);
      NewBidKeepsBids(st, st', bid);
    }
  }

  /** Dropping rows of the `bids` or `orders` table keeps the invariant. */
  lemma FewerRowsKeepInv(st: Store, st': Store)
    requires Inv(st)
    requires st' == st.(bids := st'.bids, orders := st'.orders)
    requires forall k :: k in st'.bids ==> k in st.bids && st'.bids[k] == st.bids[k]
    requires forall k :: k in st'.orders ==> k in st.orders && st'.orders[k] == st.orders[k]
    ensures Inv(st')
  {
  }

  lemma WithdrawBidKeepsInv(st: Store, u: int, lotId: int, id: int)
    requires Inv(st) && u > 0
    ensures Inv(Step(st, WithdrawBid(u, lotId, id)))
  {
    var r := Bids.DeleteOne(st, u, lotId, id);
    if r.Ok? {
      FewerRowsKeepInv(st, r.value);
    }
  }

  /** The shape of the store after a successful order change that queued
      an order mail: lots, bids and lot ids untouched. */
  ghost predicate Mailed(st: Store, st': Store, data: JobData) {
    && st' == st.(orders := st'.orders, nextOrderId := st'.nextOrderId,
                  jobs := AddJob(st.jobs, OrderMail, data, Orders.NoOptions))
    && Valid(st') && Orders.UniqueBids(st'.orders)
  }

  lemma MailedKeepsInv(st: Store, st': Store, data: JobData)
    requires Inv(st) && Mailed(st, st', data)
    ensures Inv(st')
  {
    AddJobKeepsWellKeyed(st.jobs, OrderMail, data, Orders.NoOptions);
    var key := GetJobId(OrderMail, data);
    forall k | k in st'.jobs.keyed && st'.jobs.keyed[k].action.IsLotAction()
      ensures st'.jobs.keyed[k].data.id in st'.lots
      ensures st'.lots[st'.jobs.keyed[k].data.id].ownerId == st'.jobs.keyed[k].data.ownerId
    {
      assert k in st.jobs.keyed && st'.jobs.keyed[k] == st.jobs.keyed[k];
    }
    forall i | 0 <= i < |st'.jobs.unkeyed|
      ensures !st'.jobs.unkeyed[i].action.IsLotAction()
    {
      if i < |st.jobs.unkeyed| {
        assert st'.jobs.unkeyed[i] == st.jobs.unkeyed[i];
      }
    }
  }

  /** A created order leaves the store in the `Mailed` shape. */
  lemma CreatedOrderIsMailed(st: Store, u: int, lotId: int, body: Orders.OrderCreate, ranked: seq<Bid>)
    requires Valid(st) && Orders.UniqueBids(st.orders)
    requires Orders.CreateOne(st, u, lotId, body, ranked).Ok?
    ensures Mailed(st, Orders.CreateOne(st, u, lotId, body, ranked).value.0, Orders.MailJob(lotId, u, Some(NewOrder)))
  {
  }

  /** An order request is a step to the service's store, or no step when
      the service refuses. */
  lemma CreateOrderStep(st: Store, u: int, lotId: int, body: Orders.OrderCreate, ranked: seq<Bid>)
    ensures var r := Orders.CreateOne(st, u, lotId, body, ranked);
            Step(st, CreateOrder(u, lotId, body, ranked)) == if r.Ok? then r.value.0 else st
  {
  }

  lemma UpdateOrderStep(st: Store, u: int, lotId: int, body: Orders.OrderUpdate)
    ensures var r := Orders.UpdateOne(st, u, lotId, body);
            Step(st, UpdateOrder(u, lotId, body)) == if r.Ok? then r.value.0 else st
  {
  }

  lemma ChangeOrderStatusStep(st: Store, u: int, lotId: int, body: Orders.StatusChange)
    ensures var r := Orders.ChangeStatus(st, u, lotId, body);
            Step(st, ChangeOrderStatus(u, lotId, body)) == if r.Ok? then r.value.0 else st
  {
  }

  lemma CreateOrderKeepsInv(st: Store, u: int, lotId: int, body: Orders.OrderCreate, ranked: seq<Bid>)
    requires Inv(st)
    ensures Inv(Step(st, CreateOrder(u, lotId, body, ranked)))
  {
    var r := Orders.CreateOne(st, u, lotId, body, ranked);
    CreateOrderStep(st, u, lotId, body, ranked);
    if r.Ok? {
      CreatedOrderIsMailed(st, u, lotId, body, ranked);
      MailedKeepsInv(st, r.value.0, Orders.MailJob(lotId, u, Some(NewOrder)));
    }
  }

  /** An updated order leaves the store in the `Mailed` shape. */
  lemma UpdatedOrderIsMailed(st: Store, u: int, lotId: int, body: Orders.OrderUpdate)
    requires Valid(st) && Orders.UniqueBids(st.orders)
    requires Orders.UpdateOne(st, u, lotId, body).Ok?
    ensures Mailed(st, Orders.UpdateOne(st, u, lotId, body).value.0, Orders.MailJob(lotId, u, Some(UpdatedOrder)))
  {
  }

  lemma UpdateOrderKeepsInv(st: Store, u: int, lotId: int, body: Orders.OrderUpdate)
    requires Inv(st)
    ensures Inv(Step(st, UpdateOrder(u, lotId, body)))
  {
    var r := Orders.UpdateOne(st, u, lotId, body);
    UpdateOrderStep(st, u, lotId, body);
    if r.Ok? {
      UpdatedOrderIsMailed(st, u, lotId, body);
      MailedKeepsInv(st, r.value.0, Orders.MailJob(lotId, u, Some(UpdatedOrder)));
    }
  }

  lemma DeleteOrderKeepsInv(st: Store, u: int, body: Orders.OrderUpdate)
    requires Inv(st)
    ensures Inv(Step(st, DeleteOrder(u, body)))
  {
    var r := Orders.DeleteOne(st, u, body);
    if r.Ok? {
      FewerRowsKeepInv(st, r.value);
    }
  }

  /** Rewriting an existing order under its own id keeps the keys valid. */
  lemma RewrittenOrderKeepsValid(st: Store, st': Store, o: Order)
    requires Valid(st) && o.id in st.orders
    requires st' == st.(orders := st.orders[o.id := o], jobs := st'.jobs)
    ensures Valid(st')
  {
  }

  /** A status change leaves the store in the `Mailed` shape: the only
      order it rewrites is the lot's own, under its own id. */
  lemma ChangedOrderIsMailed(st: Store, u: int, lotId: int, body: Orders.StatusChange)
    requires Valid(st) && Orders.UniqueBids(st.orders)
    requires Orders.ChangeStatus(st, u, lotId, body).Ok?
    ensures Mailed(st, Orders.ChangeStatus(st, u, lotId, body).value.0,
                   Orders.MailJob(lotId, u, Orders.TemplateFor(body.status)))
  {
    var (st', o) := Orders.ChangeStatus(st, u, lotId, body).value;
    Orders.StatusChangeTouchesOnlyItsOrder(st, u, lotId, body);
    assert o.id in st.orders && st'.orders == st.orders[o.id := o];
    RewrittenOrderKeepsValid(st, st', o);
  }

  lemma ChangeOrderStatusKeepsInv(st: Store, u: int, lotId: int, body: Orders.StatusChange)
    requires Inv(st)
    ensures Inv(Step(st, ChangeOrderStatus(u, lotId, body)))
  {
    var r := Orders.ChangeStatus(st, u, lotId, body);
    ChangeOrderStatusStep(st, u, lotId, body);
    if r.Ok? {
      ChangedOrderIsMailed(st, u, lotId, body);
      MailedKeepsInv(st, r.value.0, Orders.MailJob(lotId, u, Orders.TemplateFor(body.status)));
    }
  }

  /** The shape of the store after the queue ran the job under `key`. */
  ghost predicate Fired(st: Store, st': Store, key: string) {
    && key in st.jobs.keyed
    && st' == st.(lots := Consumer.Dispatch(st.lots, st.jobs.keyed[key]), jobs := RemoveJob(st.jobs, Some(key)))
  }

  lemma FiredKeepsJobs(st: Store, st': Store, key: string)
    requires Inv(st) && Fired(st, st', key)
    ensures Valid(st') && OwnersKnown(st') && WellKeyed(st'.jobs) && LotJobsTracked(st')
  {
    RemoveJobKeepsWellKeyed(st.jobs, Some(key));
    forall k | k in st'.jobs.keyed && st'.jobs.keyed[k].action.IsLotAction()
      ensures st'.jobs.keyed[k].data.id in st'.lots
      ensures st'.lots[st'.jobs.keyed[k].data.id].ownerId == st'.jobs.keyed[k].data.ownerId
    {
      assert k in st.jobs.keyed && st'.jobs.keyed[k] == st.jobs.keyed[k];
    }
  }

  lemma FiredKeepsBids(st: Store, st': Store, key: string)
    requires Inv(st) && Fired(st, st', key)
    ensures BidsOnLiveLots(st') && BidsRise(st')
  {
    forall b | b in st'.bids
      ensures st'.bids[b].lotId in st'.lots
      ensures st'.lots[st'.bids[b].lotId].status != Pending
      ensures st'.bids[b].proposedPrice <= st'.lots[st'.bids[b].lotId].currentPrice
    {
      var l := st.bids[b].lotId;
      assert st'.lots[l] == st.lots[l].(status := st'.lots[l].status);
    }
  }

  /** Running the job under `key`: the store in the `Fired` shape, or no
      change when the queue holds no such job. */
  lemma RunJobStep(st: Store, key: string)
    ensures key in st.jobs.keyed ==> Fired(st, Step(st, RunJob(key)), key)
    ensures key !in st.jobs.keyed ==> Step(st, RunJob(key)) == st
  {
  }

  lemma RunJobKeepsInv(st: Store, key: string)
    requires Inv(st)
    ensures Inv(Step(st, RunJob(key)))
  {
    RunJobStep(st, key);
    if key in st.jobs.keyed {
      var st' := Step(st, RunJob(key));
      FiredKeepsJobs(st, st', key);
      FiredKeepsBids(st, st', key);
    }
  }

  /** Every step an authenticated user or the queue can take keeps the
      invariant. */
  lemma StepKeepsInv(st: Store, op: Op)
    requires Inv(st) && op.Authenticated()
    ensures Inv(Step(st, op))
  {
    match op
    case CreateLot(u, p, now) => CreateLotKeepsInv(st, u, p, now);
    case UpdateLot(u, id, p, now) => UpdateLotKeepsInv(st, u, id, p, now);
    case DeleteLot(u, id) => DeleteLotKeepsInv(st, u, id);
    case PlaceBid(u, lotId, price) => PlaceBidKeepsInv(st, u, lotId, price);
    case WithdrawBid(u, lotId, id) => WithdrawBidKeepsInv(st, u, lotId, id);
    case CreateOrder(u, lotId, body, ranked) => CreateOrderKeepsInv(st, u, lotId, body, ranked);
    case UpdateOrder(u, lotId, body) => UpdateOrderKeepsInv(st, u, lotId, body);
    case DeleteOrder(u, body) => DeleteOrderKeepsInv(st, u, body);
    case ChangeOrderStatus(u, lotId, body) => ChangeOrderStatusKeepsInv(st, u, lotId, body);
    case RunJob(key) => RunJobKeepsInv(st, key);
  }

  /** The invariant holds after any sequence of steps from a state that has
      it, and so in every reachable state. */
  lemma {:induction false} RunKeepsInv(st: Store, ops: seq<Op>)
    requires Inv(st) && AllAuthenticated(ops)
    ensures Inv(Run(st, ops))
    decreases |ops|
  {
    if |ops| > 0 {
      StepKeepsInv(st, ops[0]);
      RunKeepsInv(Step(st, ops[0]), ops[1..]);
    }
  }

  lemma {:induction false} NoLotJobsUnkeyed(s: seq<Job>, a: JobAction, id: int, o: int)
    requires a.IsLotAction()
    requires forall i :: 0 <= i < |s| ==> !s[i].action.IsLotAction()
    ensures CountUnkeyed(s, a, id, o) == 0
    decreases |s|
  {
    if |s| > 0 {
      NoLotJobsUnkeyed(s[..|s| - 1], a, id, o);
    }
  }

  /** A lot has at most one activation job and one closing job, both for its
      own owner, and a lot that does not exist has none. */
  lemma LotJobsOnlyForOwner(st: Store, a: JobAction, id: int, o: int)
    requires Inv(st) && a.IsLotAction()
    ensures JobCount(st.jobs, a, id, o) <= (if id in st.lots && o == st.lots[id].ownerId then 1 else 0)
  {
    NoLotJobsUnkeyed(st.jobs.unkeyed, a, id, o);
    if id in st.lots && o == st.lots[id].ownerId {
      AtMostOneJob(st.jobs, a, id, o);
    } else {
      assert KeyedJobsFor(st.jobs, a, id, o) == {};
    }
  }

  /** A new lot has exactly one activation job and one closing job. */
  lemma CreatedLotHasBothJobs(st: Store, u: int, p: Lots.LotCreate, now: int, a: JobAction)
    requires Inv(st) && u > 0 && a.IsLotAction()
    requires Lots.CreateOne(st, u, p, now).Ok?
    ensures var (st', lot) := Lots.CreateOne(st, u, p, now).value;
            JobCount(st'.jobs, a, lot.id, lot.ownerId) == 1
  {
    var (st', lot) := Lots.CreateOne(st, u, p, now).value;
    CreatedShape(st, u, p, now);
    ScheduleBothKeepsWellKeyed(st.jobs, lot, now);
    if a == ChangeLotStatus {
      ScheduledCountsOnce(st'.jobs, lot, a, lot.startAt, now);
    } else {
      ScheduledCountsOnce(st'.jobs, lot, a, lot.endAt, now);
    }
  }

  /** A job scheduled under a lot's id is the only one of its kind. */
  lemma ScheduledCountsOnce(r: Registry, lot: Lot, a: JobAction, at: int, now: int)
    requires WellKeyed(r) && lot.id != 0 && lot.ownerId != 0
    requires Lots.Scheduled(r, lot, a, at, now)
    ensures JobCount(r, a, lot.id, lot.ownerId) == 1
  {
    AtMostOneJob(r, a, lot.id, lot.ownerId);
    var key := KeyOf(a, lot.id, lot.ownerId);
    assert key in KeyedJobsFor(r, a, lot.id, lot.ownerId);
    assert KeyedJobsFor(r, a, lot.id, lot.ownerId) == {key};
  }

  /** A lot once gone stays gone: its id is below the counter and not in
      the table, and no step hands the id out again. */
  ghost predicate Gone(st: Store, id: int) {
    id !in st.lots && id < st.nextLotId
  }

  lemma StepKeepsGone(st: Store, op: Op, id: int)
    requires Inv(st) && Gone(st, id)
    ensures Gone(Step(st, op), id)
  {
    match op
    case CreateLot(u, p, now) =>
    case UpdateLot(u, lotId, p, now) =>
    case DeleteLot(u, lotId) =>
    case PlaceBid(u, lotId, price) =>
    case WithdrawBid(u, lotId, bidId) =>
    case CreateOrder(u, lotId, body, ranked) =>
    case UpdateOrder(u, lotId, body) =>
    case DeleteOrder(u, body) =>
    case ChangeOrderStatus(u, lotId, body) =>
    case RunJob(key) =>
  }

  lemma {:induction false} RunKeepsGone(st: Store, ops: seq<Op>, id: int)
    requires Inv(st) && AllAuthenticated(ops) && Gone(st, id)
    ensures Gone(Run(st, ops), id)
    decreases |ops|
  {
    if |ops| > 0 {
      StepKeepsGone(st, ops[0], id);
      StepKeepsInv(st, ops[0]);
      RunKeepsGone(Step(st, ops[0]), ops[1..], id);
    }
  }

  /** Once a lot is deleted, whatever happens afterwards, the queue never
      again holds an activation or closing job for it. */
  lemma DeletedLotNeverScheduledAgain(st: Store, u: int, id: int, ops: seq<Op>, a: JobAction, o: int)
    requires Inv(st) && u > 0 && a.IsLotAction()
    requires Lots.DeleteOne(st, u, id).Ok?
    requires AllAuthenticated(ops)
    ensures JobCount(Run(Step(st, DeleteLot(u, id)), ops).jobs, a, id, o) == 0
  {
    var st1 := Step(st, DeleteLot(u, id));
    DeleteLotKeepsInv(st, u, id);
    assert Gone(st1, id);
    RunKeepsGone(st1, ops, id);
    RunKeepsInv(st1, ops);
    LotJobsOnlyForOwner(Run(st1, ops), a, id, o);
  }

  /** A lot with a bid on it can be neither edited nor deleted by anyone. */
  lemma LotWithBidsIsFrozen(st: Store, b: int, u: int, p: Lots.LotUpdate, now: int)
    requires Inv(st) && b in st.bids
    ensures Lots.UpdateOne(st, u, st.bids[b].lotId, p, now).Err?
    ensures Lots.DeleteOne(st, u, st.bids[b].lotId).Err?
  {
  }

  /** The bid that leads a lot's ranking, the one an order must name, is the
      most recent bid on the lot. */
  lemma WinnerIsLatestBid(st: Store, lotId: int, ranked: seq<Bid>)
    requires Inv(st) && Orders.RankedBidsOf(st, lotId, ranked) && |ranked| > 0
    ensures forall b :: b in st.bids && st.bids[b].lotId == lotId ==> b <= ranked[0].id
  {
    forall b | b in st.bids && st.bids[b].lotId == lotId
      ensures b <= ranked[0].id
    {
      var j :| 0 <= j < |ranked| && ranked[j] == st.bids[b];
      if j > 0 {
        assert ranked[0].proposedPrice >= ranked[j].proposedPrice;
      }
      assert st.bids[ranked[0].id] == ranked[0];
    }
  }
}

=== FILE: lots.dfy ===
/** `LotService`: creating, editing and deleting lots, with the two delayed
    jobs that move each lot from `pending` to `in_process` at `startAt` and to
    `closed` at `endAt`. */
module Lots {
  import opened Wrappers
  import opened Models
  import opened Errors
  import opened Queue
  import opened Store

  /** The fields of a create request. */
  datatype LotCreate = LotCreate(
    title: string,
    image: Option<string>,
    description: Option<string>,
    currentPrice: int,
    estimetedPrice: int,
    startAt: int,
    endAt: int)

  /** The fields of an update request; every one of them may be left out. */
  datatype LotUpdate = LotUpdate(
    title: Option<string>,
    image: Option<string>,
    description: Option<string>,
    currentPrice: Option<int>,
    estimetedPrice: Option<int>,
    startAt: Option<int>,
    endAt: Option<int>)

  const DEFAULT_CURRENCY := "USD"

  /** Statuses in which a lot may no longer be edited or deleted. */
  const NOT_ALLOWED_STATUSES := {InProcess, Closed}

  /** The date comparison the validation uses: `a` lies strictly after `b`. */
  predicate IsFirstDateLater(a: int, b: int) {
    a > b
  }

  /** `validate`: price, then start against now, then end against start; only
      the first violated rule is reported. Equal prices and equal dates pass. */
  function Validate(currentPrice: int, estimetedPrice: int, startAt: int, endAt: int, now: int): (r: Outcome)
    ensures r.Pass? <==> currentPrice <= estimetedPrice && now <= startAt && startAt <= endAt
    ensures estimetedPrice < currentPrice ==> r == Fail(Validation(EstimatedBelowCurrent))
    ensures currentPrice <= estimetedPrice && startAt < now ==> r == Fail(Validation(StartInPast))
    ensures currentPrice <= estimetedPrice && now <= startAt && endAt < startAt
            ==> r == Fail(Validation(EndBeforeStart))
  {
    if estimetedPrice < currentPrice then Fail(Validation(EstimatedBelowCurrent))
    else if IsFirstDateLater(now, startAt) then Fail(Validation(StartInPast))
    else if IsFirstDateLater(startAt, endAt) then Fail(Validation(EndBeforeStart))
    else Pass
  }

  /** `validateLot`: the lot must exist, belong to the caller and still be
      pending, checked in that order. */
  function ValidateLot(ownerId: int, lot: Option<Lot>): (r: Outcome)
    ensures r.Pass? <==> lot.Some? && lot.value.ownerId == ownerId && lot.value.status == Pending
    ensures lot.None? ==> r == Fail(NotFound(LotMissing))
    ensures lot.Some? && lot.value.ownerId != ownerId ==> r == Fail(Forbidden)
    ensures lot.Some? && lot.value.ownerId == ownerId && lot.value.status != Pending
            ==> r == Fail(Validation(LotLocked(lot.value.status)))
  {
    if lot.None? then Fail(NotFound(LotMissing))
    else if ownerId != lot.value.ownerId then Fail(Forbidden)
    else if lot.value.status in NOT_ALLOWED_STATUSES then Fail(Validation(LotLocked(lot.value.status)))
    else assert lot.value.status.Pending?; Pass
  }

  /** The job payload of a lot: the saved lot itself, of which the queue reads
      `id` and `ownerId`. */
  function LotJob(lot: Lot): JobData {
    JobData(lot.id, lot.ownerId, None)
  }

  /** `{ delay: Date.parse(at) - Date.now() }`. */
  function DelayUntil(at: int, now: int): JobOptions {
    JobOptions(Some(at - now), None)
  }

  /** The registry holds, under the lot's id for `action`, the job that fires
      `at - now` milliseconds from now with the default number of attempts. */
  ghost predicate Scheduled(jobs: Registry, lot: Lot, action: JobAction, at: int, now: int) {
    var k := KeyOf(action, lot.id, lot.ownerId);
    k in jobs.keyed && jobs.keyed[k] == Job(action, LotJob(lot), Some(at - now), DEFAULT_ATTEMPTS)
  }

  /** The registry is unchanged except, possibly, under the given ids. */
  ghost predicate JobsKeptExcept(before: Registry, after: Registry, changed: set<string>) {
    && after.unkeyed == before.unkeyed
    && (forall k :: k !in changed ==> (k in after.keyed <==> k in before.keyed))
    && (forall k :: k !in changed && k in before.keyed ==> after.keyed[k] == before.keyed[k])
  }

  /** Adds the activation job at `startAt` and the closing job at `endAt`,
      in that order. */
  function ScheduleBoth(jobs: Registry, lot: Lot, now: int): (r: Registry)
    ensures lot.id != 0 && lot.ownerId != 0 ==>
      && Scheduled(r, lot, ChangeLotStatus, lot.startAt, now)
      && Scheduled(r, lot, CloseLot, lot.endAt, now)
      && r.keyed.Keys == jobs.keyed.Keys
           + {KeyOf(ChangeLotStatus, lot.id, lot.ownerId), KeyOf(CloseLot, lot.id, lot.ownerId)}
      && JobsKeptExcept(jobs, r,
           {KeyOf(ChangeLotStatus, lot.id, lot.ownerId), KeyOf(CloseLot, lot.id, lot.ownerId)})
    ensures lot.id == 0 || lot.ownerId == 0 ==>
      r.keyed == jobs.keyed && |r.unkeyed| == |jobs.unkeyed| + 2
  {
    var activate := AddJob(jobs, ChangeLotStatus, LotJob(lot), DelayUntil(lot.startAt, now));
    KeysOfActionsDiffer(lot.id, lot.ownerId);
    AddJob(activate, CloseLot, LotJob(lot), DelayUntil(lot.endAt, now))
  }

  /** `createOne`: validate, save a pending lot owned by the caller, then add
      the activation job at `startAt` and the closing job at `endAt`. */
  function CreateOne(st: Store, ownerId: int, p: LotCreate, now: int): (r: Result<(Store, Lot)>)
    ensures r.Ok? <==> p.currentPrice <= p.estimetedPrice && now <= p.startAt && p.startAt <= p.endAt
    ensures r.Err? ==> r.error.Validation?
    ensures r.Ok? ==>
      && r.value.1 == Lot(st.nextLotId, ownerId, p.title, p.image, p.description, p.currentPrice,
                          p.estimetedPrice, DEFAULT_CURRENCY, p.startAt, p.endAt, Pending)
      && r.value.0 == st.(lots := st.lots[st.nextLotId := r.value.1],
                          jobs := ScheduleBoth(st.jobs, r.value.1, now),
                          nextLotId := st.nextLotId + 1)
      && 0 <= p.startAt - now <= p.endAt - now
    ensures r.Ok? && Valid(st) ==> r.value.1.id !in st.lots && Valid(r.value.0)
  {
    match Validate(p.currentPrice, p.estimetedPrice, p.startAt, p.endAt, now)
    case Fail(e) => Err(e)
    case Pass =>
      var lot := Lot(st.nextLotId, ownerId, p.title, p.image, p.description, p.currentPrice,
                     p.estimetedPrice, DEFAULT_CURRENCY, p.startAt, p.endAt, Pending);
      Ok((st.(lots := st.lots[lot.id := lot], jobs := ScheduleBoth(st.jobs, lot, now),
              nextLotId := st.nextLotId + 1), lot))
  }

  /** A lot's activation job and closing job never share an id. */
  lemma KeysOfActionsDiffer(id: int, ownerId: int)
    ensures KeyOf(ChangeLotStatus, id, ownerId) != KeyOf(CloseLot, id, ownerId)
  {
    if KeyOf(ChangeLotStatus, id, ownerId) == KeyOf(CloseLot, id, ownerId) {
      KeyOfInjective(ChangeLotStatus, id, ownerId, CloseLot, id, ownerId);
    }
  }

  /** `{ ...lot, ...payload }`: every field the payload carries overrides the
      stored one. The payload has no `id`, `ownerId`, `currency` or `status`. */
  function Merge(lot: Lot, p: LotUpdate): (m: Lot)
    ensures m.id == lot.id && m.ownerId == lot.ownerId
    ensures m.status == lot.status && m.currency == lot.currency
    ensures p.title.Some? ==> m.title == p.title.value
    ensures p.title.None? ==> m.title == lot.title
    ensures p.image.Some? ==> m.image == p.image
    ensures p.image.None? ==> m.image == lot.image
    ensures p.description.Some? ==> m.description == p.description
    ensures p.description.None? ==> m.description == lot.description
    ensures p.currentPrice.Some? ==> m.currentPrice == p.currentPrice.value
    ensures p.currentPrice.None? ==> m.currentPrice == lot.currentPrice
    ensures p.estimetedPrice.Some? ==> m.estimetedPrice == p.estimetedPrice.value
    ensures p.estimetedPrice.None? ==> m.estimetedPrice == lot.estimetedPrice
    ensures p.startAt.Some? ==> m.startAt == p.startAt.value
    ensures p.startAt.None? ==> m.startAt == lot.startAt
    ensures p.endAt.Some? ==> m.endAt == p.endAt.value
    ensures p.endAt.None? ==> m.endAt == lot.endAt
  {
    lot.(title := p.title.GetOr(lot.title),
         image := if p.image.Some? then p.image else lot.image,
         description := if p.description.Some? then p.description else lot.description,
         currentPrice := p.currentPrice.GetOr(lot.currentPrice),
         estimetedPrice := p.estimetedPrice.GetOr(lot.estimetedPrice),
         startAt := p.startAt.GetOr(lot.startAt),
         endAt := p.endAt.GetOr(lot.endAt))
  }

  const NoChanges := LotUpdate(None, None, None, None, None, None, None)

  /** An empty payload leaves the lot as it is, a present field always wins,
      and merging the same payload twice changes nothing more. */
  lemma MergeLaws(lot: Lot, p: LotUpdate)
    ensures Merge(lot, NoChanges) == lot
    ensures Merge(Merge(lot, p), p) == Merge(lot, p)
    ensures p.startAt.Some? ==> Merge(lot, p).startAt == p.startAt.value
    ensures p.startAt.None? ==> Merge(lot, p).startAt == lot.startAt
    ensures p.endAt.Some? ==> Merge(lot, p).endAt == p.endAt.value
    ensures p.endAt.None? ==> Merge(lot, p).endAt == lot.endAt
    ensures p.currentPrice.None? ==> Merge(lot, p).currentPrice == lot.currentPrice
    ensures p.estimetedPrice.None? ==> Merge(lot, p).estimetedPrice == lot.estimetedPrice
  {
  }

  /** The job half of `updateOne`: the activation job is re-added only when a
      new `startAt` was sent, the closing job only when a new `endAt` was. */
  function Reschedule(jobs: Registry, m: Lot, p: LotUpdate, now: int): (r: Registry)
    ensures p.startAt.None? && p.endAt.None? ==> r == jobs
    ensures m.id != 0 && m.ownerId != 0 ==>
      var activate := KeyOf(ChangeLotStatus, m.id, m.ownerId);
      var close := KeyOf(CloseLot, m.id, m.ownerId);
      && JobsKeptExcept(jobs, r, {activate, close})
      && (p.startAt.Some? ==> Scheduled(r, m, ChangeLotStatus, m.startAt, now))
      && (p.startAt.None? ==> JobsKeptExcept(jobs, r, {close}))
      && (p.endAt.Some? ==> Scheduled(r, m, CloseLot, m.endAt, now))
      && (p.endAt.None? ==> JobsKeptExcept(jobs, r, {activate}))
  {
    var j1 := if p.startAt.Some? then AddJob(jobs, ChangeLotStatus, LotJob(m), DelayUntil(m.startAt, now))
              else jobs;
    KeysOfActionsDiffer(m.id, m.ownerId);
    if p.endAt.Some? then AddJob(j1, CloseLot, LotJob(m), DelayUntil(m.endAt, now)) else j1
  }

  /** `updateOne`: check the caller may edit the lot, validate the merged
      record, save it, and reschedule only the jobs whose date was sent. */
  function UpdateOne(st: Store, ownerId: int, id: int, p: LotUpdate, now: int): (r: Result<(Store, Lot)>)
    ensures r.Ok? <==>
      && id in st.lots && st.lots[id].ownerId == ownerId && st.lots[id].status == Pending
      && var m := Merge(st.lots[id], p);
         m.currentPrice <= m.estimetedPrice && now <= m.startAt && m.startAt <= m.endAt
    ensures id !in st.lots ==> r == Err(NotFound(LotMissing))
    ensures id in st.lots && st.lots[id].ownerId != ownerId ==> r == Err(Forbidden)
    ensures r.Err? && id in st.lots && st.lots[id].ownerId == ownerId ==> r.error.Validation?
    ensures r.Ok? ==>
      var (st', m) := r.value;
      && m == Merge(st.lots[id], p)
      && m.ownerId == ownerId && m.status == Pending
      && st' == st.(lots := st.lots[m.id := m], jobs := Reschedule(st.jobs, m, p, now))
    ensures r.Ok? && p.startAt.None? && p.endAt.None? ==> r.value.0.jobs == st.jobs
    ensures r.Ok? && SavedLotHasKey(r) ==>
      var (st', m) := r.value;
      var activate := KeyOf(ChangeLotStatus, m.id, m.ownerId);
      var close := KeyOf(CloseLot, m.id, m.ownerId);
      && JobsKeptExcept(st.jobs, st'.jobs, {activate, close})
      && (p.startAt.Some? ==> Scheduled(st'.jobs, m, ChangeLotStatus, m.startAt, now))
      && (p.startAt.None? ==> JobsKeptExcept(st.jobs, st'.jobs, {close}))
      && (p.endAt.Some? ==> Scheduled(st'.jobs, m, CloseLot, m.endAt, now))
      && (p.endAt.None? ==> JobsKeptExcept(st.jobs, st'.jobs, {activate}))
  {
    var found := Find(st.lots, id);
    match ValidateLot(ownerId, found)
    case Fail(e) => Err(e)
    case Pass =>
      var m := Merge(found.value, p);
      match Validate(m.currentPrice, m.estimetedPrice, m.startAt, m.endAt, now)
      case Fail(e) => Err(e)
      case Pass => Ok((st.(lots := st.lots[m.id := m], jobs := Reschedule(st.jobs, m, p, now)), m))
  }

  /** The saved lot of a successful update has a key in the queue. */
  ghost predicate SavedLotHasKey(r: Result<(Store, Lot)>)
    requires r.Ok?
  {
    r.value.1.id != 0 && r.value.1.ownerId != 0
  }

  /** `deleteOne`: check the caller may delete the lot, delete it, and remove
      both of its jobs. */
  function DeleteOne(st: Store, ownerId: int, id: int): (r: Result<Store>)
    ensures r.Ok? <==> id in st.lots && st.lots[id].ownerId == ownerId && st.lots[id].status == Pending
    ensures id !in st.lots ==> r == Err(NotFound(LotMissing))
    ensures id in st.lots && st.lots[id].ownerId != ownerId ==> r == Err(Forbidden)
    ensures id in st.lots && st.lots[id].ownerId == ownerId && st.lots[id].status != Pending
            ==> r == Err(Validation(LotLocked(st.lots[id].status)))
    ensures r.Ok? ==>
      var st' := r.value;
      var lot := st.lots[id];
      && st' == st.(lots := st.lots - {id}, jobs := st'.jobs)
      && (lot.id != 0 && lot.ownerId != 0 ==>
            && KeyOf(ChangeLotStatus, lot.id, lot.ownerId) !in st'.jobs.keyed
            && KeyOf(CloseLot, lot.id, lot.ownerId) !in st'.jobs.keyed
            && st'.jobs.keyed.Keys == st.jobs.keyed.Keys
                 - {KeyOf(ChangeLotStatus, lot.id, lot.ownerId), KeyOf(CloseLot, lot.id, lot.ownerId)})
      && JobsKeptExcept(st.jobs, st'.jobs,
           {KeyOf(ChangeLotStatus, lot.id, lot.ownerId), KeyOf(CloseLot, lot.id, lot.ownerId)})
  {
    var found := Find(st.lots, id);
    match ValidateLot(ownerId, found)
    case Fail(e) => Err(e)
    case Pass =>
      var lot := found.value;
      var jobs := RemoveJob(RemoveJob(st.jobs, GetJobId(ChangeLotStatus, LotJob(lot))),
                            GetJobId(CloseLot, LotJob(lot)));
      Ok(st.(lots := st.lots - {id}, jobs := jobs))
  }

  /** The rows whose status is `in_process`, in table order. */
  function InProcessOnly(rows: seq<Lot>): seq<Lot> {
    Filter(rows, IsOpen)
  }

  predicate IsOpen(lot: Lot) {
    lot.status == InProcess
  }

  /** `getAll`: one page of the lots that are open for bidding. */
  function GetAll(rows: seq<Lot>, page: int, limit: int): (r: seq<Lot>)
    requires page >= 1 && limit >= 1
    ensures |r| <= limit
    ensures forall i :: 0 <= i < |r| ==> r[i].status == InProcess && r[i] in rows
    ensures |r| == 0 || limit * (page - 1) + |r| <= |InProcessOnly(rows)|
    ensures forall i :: 0 <= i < |r| ==> r[i] == InProcessOnly(rows)[limit * (page - 1) + i]
    ensures |r| < limit ==> limit * (page - 1) + |r| >= |InProcessOnly(rows)|
  {
    Paginate(InProcessOnly(rows), page, limit)
  }

  /** Every open lot appears on some page (and, by the contract of `GetAll`,
      pages hold nothing else). */
  lemma OpenLotIsOnSomePage(rows: seq<Lot>, limit: int, x: Lot) returns (page: int)
    requires limit >= 1
    requires x in rows && x.status == InProcess
    ensures page >= 1 && x in GetAll(rows, page, limit)
  {
    var open := InProcessOnly(rows);
    assert IsOpen(x) && x in open;
    var j :| 0 <= j < |open| && open[j] == x;
    var i;
    page, i := PageOf(j, limit);
    PaginateCovers(open, limit, page, i);
    assert GetAll(rows, page, limit)[i] == x;
  }
}

=== FILE: models.dfy ===
/** The persisted entities of the auction marketplace: lots, bids and orders.
    Prices are `decimal(10,2)` columns and are modelled as integer cents;
    timestamps are integer milliseconds. */
module Models {
  import opened Wrappers

  /** Auction lifecycle of a lot. */
  datatype LotStatus = Pending | InProcess | Closed

  /** A lot offered for sale. `createdAt` and the `bids` relation are not modelled. */
  datatype Lot = Lot(
    id: int,
    ownerId: int,
    title: string,
    image: Option<string>,
    description: Option<string>,
    currentPrice: int,
    estimetedPrice: int,
    currency: string,
    startAt: int,
    endAt: int,
    status: LotStatus)

  /** A bid: `currentPrice` is the lot's price just before the bid was admitted. */
  datatype Bid = Bid(
    id: int,
    ownerId: int,
    lotId: int,
    proposedPrice: int,
    currentPrice: int)

  /** Fulfilment status of an order. */
  datatype OrderStatus = OrderPending | Sent | Delivered

  datatype ArrivalType = Pickup | RoyalMail | UsPostal | DhlExpress

  /** An order placed for a winning bid; `bidId` is a unique column. */
  datatype Order = Order(
    id: int,
    bidId: int,
    arrivalLocation: string,
    arrivalType: ArrivalType,
    status: OrderStatus)

  /** Mail templates referenced by order jobs. */
  datatype MailTemplate =
    | ForgotPassword | LotWinner | WinnerClose | NoWinnerClose
    | NewOrder | UpdatedOrder | SentOrder | DeliveredOrder
}

=== FILE: orders.dfy ===
/** `OrderService`: the winner of a closed lot places one order for the
    winning bid, may edit or withdraw it while it is pending, and the order
    then moves pending -> sent (by the lot's owner) -> delivered (by the
    winner). Every successful change queues an `orderMail` job. */
module Orders {
  import opened Wrappers
  import opened Models
  import opened Errors
  import opened Queue
  import opened Store

  datatype OrderCreate = OrderCreate(bidId: int, arrivalLocation: string, arrivalType: ArrivalType)

  /** Update and delete payload: the order's id and the fields to change. */
  datatype OrderUpdate = OrderUpdate(id: int, arrivalLocation: Option<string>, arrivalType: Option<ArrivalType>)

  datatype StatusChange = StatusChange(id: int, status: OrderStatus)

  /** An order loaded with its bid and the bid's lot. */
  datatype OrderView = OrderView(order: Order, bid: Bid, lot: Lot)

  const NoOptions := JobOptions(None, None)

  /** The mail job queued after an order change for the lot `lotId`. */
  function MailJob(lotId: int, ownerId: int, template: Option<MailTemplate>): JobData {
    JobData(lotId, ownerId, template)
  }

  /** No two orders share a bid: the unique `bidId` column. */
  ghost predicate UniqueBids(orders: map<int, Order>) {
    forall a, b :: a in orders && b in orders && orders[a].bidId == orders[b].bidId ==> a == b
  }

  /** `repo.save(order)`: writes the row under its id, unless another row
      already holds the same bid, which the unique column refuses. */
  function SaveOrder(orders: map<int, Order>, o: Order): (r: Option<map<int, Order>>)
    ensures r.Some? <==> forall k :: k in orders && k != o.id ==> orders[k].bidId != o.bidId
    ensures r.Some? ==> r.value.Keys == orders.Keys + {o.id} && r.value[o.id] == o
    ensures r.Some? ==> forall k :: k in orders && k != o.id ==> r.value[k] == orders[k]
    ensures r.Some? && UniqueBids(orders) ==> UniqueBids(r.value)
  {
    if exists k :: k in orders && k != o.id && orders[k].bidId == o.bidId then None
    else Some(orders[o.id := o])
  }

  /** The bids of a lot as `getLotWinner` returns them: exactly the lot's
      rows of the `bids` table, highest proposal first. */
  ghost predicate RankedBidsOf(st: Store, lotId: int, ranked: seq<Bid>) {
    && (forall i :: 0 <= i < |ranked| ==>
          ranked[i].id in st.bids && st.bids[ranked[i].id] == ranked[i] && ranked[i].lotId == lotId)
    && (forall id :: id in st.bids && st.bids[id].lotId == lotId ==> st.bids[id] in ranked)
    && (forall i, j :: 0 <= i < j < |ranked| ==> ranked[i].proposedPrice >= ranked[j].proposedPrice)
  }

  /** `validate`: the lot exists and has bids, the caller owns the leading
      bid, the order names that bid, and the lot is closed, in that order. */
  function Validate(ownerId: int, bidId: int, lot: Option<Lot>, ranked: seq<Bid>): (r: Outcome)
    ensures r.Pass? <==>
      && lot.Some? && |ranked| > 0 && ownerId == ranked[0].ownerId && bidId == ranked[0].id
      && lot.value.status == Closed
    ensures lot.None? ==> r == Fail(NotFound(LotMissing))
    ensures lot.Some? && |ranked| == 0 ==> r == Fail(NotFound(BidsMissing))
    ensures lot.Some? && |ranked| > 0 && ownerId != ranked[0].ownerId ==> r == Fail(Forbidden)
    ensures lot.Some? && |ranked| > 0 && ownerId == ranked[0].ownerId && bidId != ranked[0].id
            ==> r == Fail(BadRequest)
    ensures r.Fail? && lot.Some? && |ranked| > 0 && ownerId == ranked[0].ownerId && bidId == ranked[0].id
            ==> r == Fail(Validation(OrderLotNotClosed))
  {
    if lot.None? then Fail(NotFound(LotMissing))
    else if |ranked| == 0 then Fail(NotFound(BidsMissing))
    else if ownerId != ranked[0].ownerId then Fail(Forbidden)
    else if bidId != ranked[0].id then Fail(BadRequest)
    else if lot.value.status != Closed then Fail(Validation(OrderLotNotClosed))
    else Pass
  }

  /** `createOne`: validate against the lot and its ranked bids, save a
      pending order for the bid, and queue a new-order mail. */
  function CreateOne(st: Store, ownerId: int, lotId: int, body: OrderCreate, ranked: seq<Bid>)
    : (r: Result<(Store, Order)>)
    ensures Validate(ownerId, body.bidId, Find(st.lots, lotId), ranked).Fail? ==>
      r == Err(Validate(ownerId, body.bidId, Find(st.lots, lotId), ranked).error)
    ensures r.Ok? <==>
      && Validate(ownerId, body.bidId, Find(st.lots, lotId), ranked).Pass?
      && SaveOrder(st.orders, Order(st.nextOrderId, body.bidId, body.arrivalLocation, body.arrivalType, OrderPending)).Some?
    ensures r.Err? && Validate(ownerId, body.bidId, Find(st.lots, lotId), ranked).Pass?
            ==> r.error == Validation(OrderNotCreatable)
    ensures r.Ok? ==>
      && r.value.1 == Order(st.nextOrderId, body.bidId, body.arrivalLocation, body.arrivalType, OrderPending)
      && r.value.0.orders == st.orders[st.nextOrderId := r.value.1]
      && r.value.0.jobs == AddJob(st.jobs, OrderMail, MailJob(lotId, ownerId, Some(NewOrder)), NoOptions)
      && r.value.0 == st.(orders := r.value.0.orders, jobs := r.value.0.jobs, nextOrderId := st.nextOrderId + 1)
    ensures r.Ok? && Valid(st) ==> r.value.1.id !in st.orders && Valid(r.value.0)
    ensures r.Ok? && UniqueBids(st.orders) ==> UniqueBids(r.value.0.orders)
  {
    match Validate(ownerId, body.bidId, Find(st.lots, lotId), ranked)
    case Fail(e) => Err(e)
    case Pass =>
      var order := Order(st.nextOrderId, body.bidId, body.arrivalLocation, body.arrivalType, OrderPending);
      match SaveOrder(st.orders, order)
      case None => Err(Validation(OrderNotCreatable))
      case Some(orders) =>
        Ok((st.(orders := orders,
                jobs := AddJob(st.jobs, OrderMail, MailJob(lotId, ownerId, Some(NewOrder)), NoOptions),
                nextOrderId := st.nextOrderId + 1), order))
  }

  /** Only the highest bidder of a closed lot gets an order, and only for
      the bid that leads the lot's bids. */
  lemma OrderGoesToHighestBidder(st: Store, ownerId: int, lotId: int, body: OrderCreate, ranked: seq<Bid>)
    requires RankedBidsOf(st, lotId, ranked)
    requires CreateOne(st, ownerId, lotId, body, ranked).Ok?
    ensures lotId in st.lots && st.lots[lotId].status == Closed
    ensures body.bidId in st.bids
    ensures st.bids[body.bidId].ownerId == ownerId && st.bids[body.bidId].lotId == lotId
    ensures forall id :: id in st.bids && st.bids[id].lotId == lotId ==>
              st.bids[id].proposedPrice <= st.bids[body.bidId].proposedPrice
  {
    var top := ranked[0];
    assert st.bids[body.bidId] == top;
    forall id | id in st.bids && st.bids[id].lotId == lotId
      ensures st.bids[id].proposedPrice <= top.proposedPrice
    {
      var j :| 0 <= j < |ranked| && ranked[j] == st.bids[id];
      if j > 0 {
        assert ranked[0].proposedPrice >= ranked[j].proposedPrice;
      }
    }
  }

  /** The leading bidder of a closed lot can always order the leading bid
      once, and a second order for the same bid is refused. */
  lemma WinnerOrdersOnce(st: Store, ownerId: int, lotId: int, body: OrderCreate, again: OrderCreate, ranked: seq<Bid>)
    requires Valid(st) && UniqueBids(st.orders)
    requires lotId in st.lots && st.lots[lotId].status == Closed
    requires |ranked| > 0 && ranked[0].ownerId == ownerId && body.bidId == ranked[0].id
    requires forall k :: k in st.orders ==> st.orders[k].bidId != body.bidId
    requires again.bidId == body.bidId
    ensures CreateOne(st, ownerId, lotId, body, ranked).Ok?
    ensures var st1 := CreateOne(st, ownerId, lotId, body, ranked).value.0;
            CreateOne(st1, ownerId, lotId, again, ranked) == Err(Validation(OrderNotCreatable))
  {
    var r := CreateOne(st, ownerId, lotId, body, ranked);
    var st1 := r.value.0;
    assert st1.lots == st.lots;
    var again' := Order(st1.nextOrderId, again.bidId, again.arrivalLocation, again.arrivalType, OrderPending);
    assert st.nextOrderId in st1.orders && st.nextOrderId != again'.id;
    assert SaveOrder(st1.orders, again').None?;
  }

  /** The order with that id loaded with its bid (`relations: ['bid']`). */
  function WithBid(st: Store, id: int): (r: Option<(Order, Bid)>)
    ensures r.Some? <==> id in st.orders && st.orders[id].bidId in st.bids
    ensures r.Some? ==> r.value == (st.orders[id], st.bids[st.orders[id].bidId])
  {
    if id in st.orders && st.orders[id].bidId in st.bids then Some((st.orders[id], st.bids[st.orders[id].bidId]))
    else None
  }

  /** `validateOrder`: the order exists, the caller placed its bid, and it
      is still pending, in that order. */
  function ValidateOrder(ownerId: int, found: Option<(Order, Bid)>): (r: Outcome)
    ensures r.Pass? <==> found.Some? && ownerId == found.value.1.ownerId && found.value.0.status == OrderPending
    ensures found.None? ==> r == Fail(NotFound(OrderMissing))
    ensures found.Some? && ownerId != found.value.1.ownerId ==> r == Fail(Forbidden)
    ensures found.Some? && ownerId == found.value.1.ownerId && found.value.0.status != OrderPending
            ==> r == Fail(Validation(OrderNotEditable(found.value.0.status)))
  {
    if found.None? then Fail(NotFound(OrderMissing))
    else if ownerId != found.value.1.ownerId then Fail(Forbidden)
    else if found.value.0.status != OrderPending then Fail(Validation(OrderNotEditable(found.value.0.status)))
    else Pass
  }

  /** `repo.merge(order, body)`: the sent fields, the id included, replace
      the stored ones. */
  function MergeOrder(o: Order, body: OrderUpdate): (m: Order)
    ensures m.id == body.id && m.bidId == o.bidId && m.status == o.status
    ensures m.arrivalLocation == body.arrivalLocation.GetOr(o.arrivalLocation)
    ensures m.arrivalType == body.arrivalType.GetOr(o.arrivalType)
    ensures body.id == o.id && body.arrivalLocation.None? && body.arrivalType.None? ==> m == o
  {
    o.(id := body.id,
       arrivalLocation := body.arrivalLocation.GetOr(o.arrivalLocation),
       arrivalType := body.arrivalType.GetOr(o.arrivalType))
  }

  /** `updateOne`: only the winner may edit the delivery details of a
      pending order; an updated-order mail is queued for the route's lot. */
  function UpdateOne(st: Store, ownerId: int, lotId: int, body: OrderUpdate): (r: Result<(Store, Order)>)
    ensures ValidateOrder(ownerId, WithBid(st, body.id)).Fail? ==>
      r == Err(ValidateOrder(ownerId, WithBid(st, body.id)).error)
    ensures r.Ok? ==>
      && body.id in st.orders
      && st.orders[body.id].status == OrderPending
      && st.bids[st.orders[body.id].bidId].ownerId == ownerId
      && r.value.1 == MergeOrder(st.orders[body.id], body)
      && r.value.0.orders == st.orders[body.id := r.value.1]
      && r.value.0.jobs == AddJob(st.jobs, OrderMail, MailJob(lotId, ownerId, Some(UpdatedOrder)), NoOptions)
      && r.value.0 == st.(orders := r.value.0.orders, jobs := r.value.0.jobs)
    ensures UniqueBids(st.orders) ==>
      (r.Ok? <==> ValidateOrder(ownerId, WithBid(st, body.id)).Pass?)
    ensures r.Ok? && UniqueBids(st.orders) ==> UniqueBids(r.value.0.orders)
    ensures r.Ok? && Valid(st) ==> Valid(r.value.0)
  {
    var found := WithBid(st, body.id);
    match ValidateOrder(ownerId, found)
    case Fail(e) => Err(e)
    case Pass =>
      var merged := MergeOrder(found.value.0, body);
      match SaveOrder(st.orders, merged)
      case None => Err(Validation(OrderNotUpdatable))
      case Some(orders) =>
        Ok((st.(orders := orders,
                jobs := AddJob(st.jobs, OrderMail, MailJob(lotId, ownerId, Some(UpdatedOrder)), NoOptions)), merged))
  }

  /** `deleteOne`: only the winner may withdraw a pending order. */
  function DeleteOne(st: Store, ownerId: int, body: OrderUpdate): (r: Result<Store>)
    ensures r.Ok? <==> ValidateOrder(ownerId, WithBid(st, body.id)).Pass?
    ensures r.Err? ==> r.error == ValidateOrder(ownerId, WithBid(st, body.id)).error
    ensures r.Ok? ==>
      && body.id in st.orders && st.orders[body.id].status == OrderPending
      && r.value == st.(orders := st.orders - {body.id})
  {
    match ValidateOrder(ownerId, WithBid(st, body.id))
    case Fail(e) => Err(e)
    case Pass => Ok(st.(orders := st.orders - {body.id}))
  }

  /** The order with that id loaded with its bid and the bid's lot. */
  function ViewOf(st: Store, id: int): (r: Option<OrderView>)
    ensures r.Some? <==>
      id in st.orders && st.orders[id].bidId in st.bids && st.bids[st.orders[id].bidId].lotId in st.lots
    ensures r.Some? ==>
      && r.value.order == st.orders[id]
      && r.value.bid == st.bids[r.value.order.bidId]
      && r.value.lot == st.lots[r.value.bid.lotId]
  {
    if id in st.orders && st.orders[id].bidId in st.bids && st.bids[st.orders[id].bidId].lotId in st.lots then
      var o := st.orders[id];
      var b := st.bids[o.bidId];
      Some(OrderView(o, b, st.lots[b.lotId]))
    else None
  }

  predicate OfLot(st: Store, id: int, lotId: int) {
    ViewOf(st, id).Some? && ViewOf(st, id).value.bid.lotId == lotId
  }

  /** The first order, by id from `from` on, whose bid is on the lot (the
      join on `bid.lot_id` in `getOne`). */
  function FirstOrderOf(st: Store, lotId: int, from: int): (r: Option<int>)
    ensures r.Some? ==> from <= r.value < st.nextOrderId && OfLot(st, r.value, lotId)
    ensures r.Some? ==> forall k :: from <= k < r.value ==> !OfLot(st, k, lotId)
    ensures r.None? ==> forall k :: from <= k < st.nextOrderId ==> !OfLot(st, k, lotId)
    decreases st.nextOrderId - from
  {
    if from >= st.nextOrderId then None
    else if OfLot(st, from, lotId) then Some(from)
    else FirstOrderOf(st, lotId, from + 1)
  }

  /** `getOne`: the lot's order, shown only to the winner and to the lot's
      owner. */
  function GetOne(st: Store, userId: int, lotId: int): (r: Result<OrderView>)
    ensures r.Ok? ==>
      && r.value.bid.lotId == lotId
      && (userId == r.value.bid.ownerId || userId == r.value.lot.ownerId)
    ensures Valid(st) ==>
      (r == Err(NotFound(OrderMissing)) <==> forall k :: k in st.orders ==> !OfLot(st, k, lotId))
    ensures r.Err? ==> r.error in {NotFound(OrderMissing), Forbidden}
    ensures Valid(st) && r.Ok? ==> r.value.order.id in st.orders && st.orders[r.value.order.id] == r.value.order
    ensures Valid(st) && r.Ok? ==> forall k :: k in st.orders && k < r.value.order.id ==> !OfLot(st, k, lotId)
    ensures FirstOrderOf(st, lotId, 1).Some? ==>
      var v := ViewOf(st, FirstOrderOf(st, lotId, 1).value).value;
      (r.Ok? <==> userId == v.bid.ownerId || userId == v.lot.ownerId)
  {
    match FirstOrderOf(st, lotId, 1)
    case None => Err(NotFound(OrderMissing))
    case Some(k) =>
      var view := ViewOf(st, k).value;
      if userId != view.bid.ownerId && userId != view.lot.ownerId then Err(Forbidden)
      else Ok(view)
  }

  /** `getOne` as written: with no order on the lot, `order.bid` is read from
      `undefined` and throws a TypeError, so the NotFound branch of
      `validateStatusChange` is never reached. */
  function GetOneAsWritten(st: Store, userId: int, lotId: int): (r: Result<OrderView>)
    ensures FirstOrderOf(st, lotId, 1).None? ==> r == Err(Internal)
    ensures r.Err? ==> r.error in {Internal, Forbidden}
    ensures r.Ok? ==> r.value.bid.lotId == lotId && (userId == r.value.bid.ownerId || userId == r.value.lot.ownerId)
  {
    match FirstOrderOf(st, lotId, 1)
    case None => Err(Internal)
    case Some(_) => GetOne(st, userId, lotId)
  }

  /** Asking for the order of a lot that has none: a server error as written,
      404 from the corrected `GetOne`, which `ChangeStatus` uses. */
  lemma NoOrderIsServerError(st: Store, userId: int, lotId: int)
    requires Valid(st)
    requires forall k :: k in st.orders ==> !OfLot(st, k, lotId)
    ensures GetOneAsWritten(st, userId, lotId) == Err(Internal)
    ensures GetOne(st, userId, lotId) == Err(NotFound(OrderMissing))
  {
  }

  /** Position of a status along the fulfilment line. */
  function Rank(s: OrderStatus): nat {
    match s
    case OrderPending => 0
    case Sent => 1
    case Delivered => 2
  }

  /** `validateStatusChange`: the lot's owner marks a pending order sent,
      the winner marks a sent order delivered; nothing else is allowed. */
  function ValidateStatusChange(ownerId: int, status: OrderStatus, found: Option<OrderView>): (r: Outcome)
    ensures found.None? ==> r == Fail(NotFound(OrderMissing))
    ensures found.Some? && r.Fail? ==> r.error == Validation(SwitchRefused(found.value.order.status, status))
    ensures r.Pass? <==>
      && found.Some?
      && (|| (status == Sent && found.value.order.status == OrderPending && ownerId == found.value.lot.ownerId)
          || (status == Delivered && found.value.order.status == Sent && ownerId == found.value.bid.ownerId))
  {
    if found.None? then Fail(NotFound(OrderMissing))
    else
      var v := found.value;
      var toSent := status == Sent && v.order.status == OrderPending && ownerId == v.lot.ownerId;
      var toDelivered := status == Delivered && v.order.status == Sent && ownerId == v.bid.ownerId;
      if !(toSent || toDelivered) then Fail(Validation(SwitchRefused(v.order.status, status)))
      else Pass
  }

  /** Every allowed change moves an order exactly one step forward;
      nothing leaves `delivered` and nothing returns to `pending`. */
  lemma StatusAdvancesOneStep(ownerId: int, status: OrderStatus, view: OrderView)
    ensures ValidateStatusChange(ownerId, status, Some(view)).Pass? ==> Rank(status) == Rank(view.order.status) + 1
    ensures view.order.status == Delivered ==> ValidateStatusChange(ownerId, status, Some(view)).Fail?
    ensures status == OrderPending ==> ValidateStatusChange(ownerId, status, Some(view)).Fail?
  {
  }

  /** Who may make each step: only the lot's owner ships, only the winner
      confirms delivery, whoever else asks. */
  lemma StepBelongsToOneParty(ownerId: int, status: OrderStatus, view: OrderView)
    requires view.bid.ownerId != view.lot.ownerId
    requires ValidateStatusChange(ownerId, status, Some(view)).Pass?
    ensures status == Sent ==> ownerId == view.lot.ownerId && ValidateStatusChange(view.bid.ownerId, status, Some(view)).Fail?
    ensures status == Delivered ==> ownerId == view.bid.ownerId && ValidateStatusChange(view.lot.ownerId, status, Some(view)).Fail?
  {
  }

  /** The mail template for the status an order was switched to. */
  function TemplateFor(status: OrderStatus): (t: Option<MailTemplate>)
    ensures t.Some? <==> status != OrderPending
    ensures status == Sent ==> t == Some(SentOrder)
    ensures status == Delivered ==> t == Some(DeliveredOrder)
  {
    match status
    case Sent => Some(SentOrder)
    case Delivered => Some(DeliveredOrder)
    case OrderPending => None
  }

  /** `changeStatus`: load the lot's order, check the step, merge the body
      (its id included) into the order and save, then queue the mail for
      the new status. */
  function ChangeStatus(st: Store, ownerId: int, lotId: int, body: StatusChange): (r: Result<(Store, Order)>)
    ensures GetOne(st, ownerId, lotId).Err? ==> r == Err(GetOne(st, ownerId, lotId).error)
    ensures GetOne(st, ownerId, lotId).Ok? &&
            ValidateStatusChange(ownerId, body.status, Some(GetOne(st, ownerId, lotId).value)).Fail? ==>
      r == Err(ValidateStatusChange(ownerId, body.status, Some(GetOne(st, ownerId, lotId).value)).error)
    ensures r.Ok? ==>
      var view := GetOne(st, ownerId, lotId).value;
      && ValidateStatusChange(ownerId, body.status, Some(view)).Pass?
      && Rank(body.status) == Rank(view.order.status) + 1
      && r.value.1 == view.order.(id := body.id, status := body.status)
      && r.value.0.orders == st.orders[body.id := r.value.1]
      && r.value.0.jobs == AddJob(st.jobs, OrderMail, MailJob(lotId, ownerId, TemplateFor(body.status)), NoOptions)
      && r.value.0 == st.(orders := r.value.0.orders, jobs := r.value.0.jobs)
    ensures r.Ok? && UniqueBids(st.orders) ==> UniqueBids(r.value.0.orders)
  {
    match GetOne(st, ownerId, lotId)
    case Err(e) => Err(e)
    case Ok(view) =>
      match ValidateStatusChange(ownerId, body.status, Some(view))
      case Fail(e) => Err(e)
      case Pass =>
        StatusAdvancesOneStep(ownerId, body.status, view);
        var changed := view.order.(id := body.id, status := body.status);
        match SaveOrder(st.orders, changed)
        case None => Err(Validation(StatusNotChangeable))
        case Some(orders) =>
          Ok((st.(orders := orders,
                  jobs := AddJob(st.jobs, OrderMail, MailJob(lotId, ownerId, TemplateFor(body.status)), NoOptions)),
              changed))
  }

  /** A body id that is not the found order's id is refused by the unique
      `bidId` column, so a status change only ever rewrites the lot's own
      order, and then leaves every other order as it was. */
  lemma StatusChangeTouchesOnlyItsOrder(st: Store, ownerId: int, lotId: int, body: StatusChange)
    requires Valid(st) && UniqueBids(st.orders)
    requires GetOne(st, ownerId, lotId).Ok?
    requires ValidateStatusChange(ownerId, body.status, Some(GetOne(st, ownerId, lotId).value)).Pass?
    ensures var view := GetOne(st, ownerId, lotId).value;
            body.id != view.order.id ==> ChangeStatus(st, ownerId, lotId, body) == Err(Validation(StatusNotChangeable))
    ensures var view := GetOne(st, ownerId, lotId).value;
            body.id == view.order.id ==>
              && ChangeStatus(st, ownerId, lotId, body).Ok?
              && ChangeStatus(st, ownerId, lotId, body).value.0.orders == st.orders[body.id := view.order.(status := body.status)]
  {
    var view := GetOne(st, ownerId, lotId).value;
    var k := view.order.id;
    assert k in st.orders && st.orders[k] == view.order;
    var changed := view.order.(id := body.id, status := body.status);
    if body.id != k {
      assert st.orders[k].bidId == changed.bidId;
      assert SaveOrder(st.orders, changed).None?;
    } else {
      assert SaveOrder(st.orders, changed).Some?;
    }
  }
}

=== FILE: queue.dfy ===
/** `QueueService`: the registry of delayed jobs of the `statesFlow` queue.
    A job whose data carries a non-zero `id` and `ownerId` is stored under the
    deterministic id `name-id-ownerId`; adding a job first removes any job under
    that id, so a reschedule replaces rather than duplicates. A job without an
    id gets a fresh, queue-generated one and is kept in `unkeyed`. Timers,
    retries and workers are not modelled: `delay` and `attempts` are data. */
module Queue {
  import opened Wrappers
  import opened Models
  import JobKeys

  /** The named jobs of the queue. */
  datatype JobAction = ChangeLotStatus | CloseLot | OrderMail {
    function Name(): string {
      match this
      case ChangeLotStatus => "changeLotStatus"
      case CloseLot => "closelot"
      case OrderMail => "orderMail"
    }

    /** The two jobs that drive a lot through its lifecycle. */
    predicate IsLotAction() {
      ChangeLotStatus? || CloseLot?
    }
  }

  /** Number of attempts Bull makes unless the caller says otherwise. */
  const DEFAULT_ATTEMPTS := 5

  /** The part of a job's payload the model keeps: the lot id, the user id the
      job is keyed on, and the mail template of an order mail job. */
  datatype JobData = JobData(id: int, ownerId: int, template: Option<MailTemplate>)

  /** Options a caller may pass to `addJob`. */
  datatype JobOptions = JobOptions(delay: Option<int>, attempts: Option<int>)

  datatype Job = Job(action: JobAction, data: JobData, delay: Option<int>, attempts: int)

  datatype Registry = Registry(keyed: map<string, Job>, unkeyed: seq<Job>)

  const EmptyRegistry := Registry(map[], [])

  lemma NamesWithoutDash(a: JobAction)
    ensures forall k :: 0 <= k < |a.Name()| ==> a.Name()[k] != '-'
  {
  }

  /** The id `getJobID` gives a job with this name and data. */
  function KeyOf(action: JobAction, id: int, ownerId: int): string {
    JobKeys.JobIdText(action.Name(), id, ownerId)
  }

  /** `getJobID`: a key exactly when both `id` and `ownerId` are truthy, and
      the key names the action, the lot and the owner it was built from. */
  function GetJobId(action: JobAction, data: JobData): (key: Option<string>)
    ensures key.Some? <==> data.id != 0 && data.ownerId != 0
    ensures key.Some? ==>
      JobKeys.ParseJobId(key.value) == Some((action.Name(), data.id, data.ownerId))
  {
    if data.id != 0 && data.ownerId != 0 then
      JobKeys.JobIdRoundTrip(action.Name(), data.id, data.ownerId);
      Some(KeyOf(action, data.id, data.ownerId))
    else None
  }

  /** Two jobs share a key only when they agree on action, lot and owner. */
  lemma KeyOfInjective(a1: JobAction, id1: int, o1: int, a2: JobAction, id2: int, o2: int)
    requires KeyOf(a1, id1, o1) == KeyOf(a2, id2, o2)
    ensures a1 == a2 && id1 == id2 && o1 == o2
  {
    NamesWithoutDash(a1);
    NamesWithoutDash(a2);
    JobKeys.JobIdInjective(a1.Name(), id1, o1, a2.Name(), id2, o2);
  }

  /** `removeJob`: drops the job stored under `jobId`, if any. */
  function RemoveJob(r: Registry, jobId: Option<string>): (r': Registry)
    ensures r'.unkeyed == r.unkeyed
    ensures jobId.None? || jobId.value !in r.keyed ==> r' == r
    ensures jobId.Some? ==> r'.keyed.Keys == r.keyed.Keys - {jobId.value}
    ensures forall k :: k in r'.keyed ==> k in r.keyed && r'.keyed[k] == r.keyed[k]
  {
    if jobId.Some? && jobId.value in r.keyed then r.(keyed := r.keyed - {jobId.value}) else r
  }

  /** The job `queue.add` stores: `attempts: 5` is written before the
      caller's options, so a caller-supplied `attempts` wins. */
  function MakeJob(action: JobAction, data: JobData, options: JobOptions): Job {
    Job(action, data, options.delay, options.attempts.GetOr(DEFAULT_ATTEMPTS))
  }

  /** `addJob`: remove whatever sits under the job's id, then add the job. */
  function AddJob(r: Registry, action: JobAction, data: JobData, options: JobOptions): (r': Registry)
    ensures var key := GetJobId(action, data);
            key.Some? ==>
              && r'.unkeyed == r.unkeyed
              && r'.keyed.Keys == r.keyed.Keys + {key.value}
              && r'.keyed[key.value].action == action
              && r'.keyed[key.value].data == data
              && r'.keyed[key.value].delay == options.delay
              && r'.keyed[key.value].attempts
                 == (if options.attempts.Some? then options.attempts.value else DEFAULT_ATTEMPTS)
              && (forall k :: k in r.keyed && k != key.value ==> r'.keyed[k] == r.keyed[k])
    ensures GetJobId(action, data).None? ==>
              && r'.keyed == r.keyed
              && |r'.unkeyed| == |r.unkeyed| + 1
              && r'.unkeyed[..|r.unkeyed|] == r.unkeyed
              && r'.unkeyed[|r.unkeyed|]
                 == Job(action, data, options.delay,
                        if options.attempts.Some? then options.attempts.value else DEFAULT_ATTEMPTS)
  {
    var key := GetJobId(action, data);
    var cleared := RemoveJob(r, key);
    var job := MakeJob(action, data, options);
    if key.Some? then cleared.(keyed := cleared.keyed[key.value := job])
    else cleared.(unkeyed := cleared.unkeyed + [job])
  }

  /** Every keyed job sits under its own id, and no job that has an id is kept
      among the unkeyed ones. `addJob` and `removeJob` keep this. */
  ghost predicate WellKeyed(r: Registry) {
    && (forall k :: k in r.keyed ==> GetJobId(r.keyed[k].action, r.keyed[k].data) == Some(k))
    && (forall i :: 0 <= i < |r.unkeyed| ==> GetJobId(r.unkeyed[i].action, r.unkeyed[i].data).None?)
  }

  /** Ids of the keyed jobs of one action for one (lot, owner) pair. */
  function KeyedJobsFor(r: Registry, action: JobAction, id: int, ownerId: int): set<string> {
    set k | k in r.keyed && r.keyed[k].action == action
                        && r.keyed[k].data.id == id && r.keyed[k].data.ownerId == ownerId
  }

  function CountUnkeyed(s: seq<Job>, action: JobAction, id: int, ownerId: int): nat {
    if |s| == 0 then 0
    else CountUnkeyed(s[..|s| - 1], action, id, ownerId)
         + (if s[|s| - 1].action == action && s[|s| - 1].data.id == id
               && s[|s| - 1].data.ownerId == ownerId then 1 else 0)
  }

  /** How many jobs of `action` the registry holds for (id, ownerId). */
  function JobCount(r: Registry, action: JobAction, id: int, ownerId: int): nat {
    |KeyedJobsFor(r, action, id, ownerId)| + CountUnkeyed(r.unkeyed, action, id, ownerId)
  }

  lemma {:induction false} NoUnkeyedWithKey(s: seq<Job>, action: JobAction, id: int, ownerId: int)
    requires forall i :: 0 <= i < |s| ==> GetJobId(s[i].action, s[i].data).None?
    requires id != 0 && ownerId != 0
    ensures CountUnkeyed(s, action, id, ownerId) == 0
    decreases |s|
  {
    if |s| > 0 {
      NoUnkeyedWithKey(s[..|s| - 1], action, id, ownerId);
    }
  }

  lemma SubsetOfSingleton<T>(s: set<T>, x: T)
    requires s <= {x}
    ensures |s| <= 1
  {
    if s != {} {
      assert s == {x};
    }
  }

  /** In a well-keyed registry, every (action, lot, owner) with a key has at
      most one job: the one stored under its id. */
  lemma AtMostOneJob(r: Registry, action: JobAction, id: int, ownerId: int)
    requires WellKeyed(r)
    requires id != 0 && ownerId != 0
    ensures KeyedJobsFor(r, action, id, ownerId) <= {KeyOf(action, id, ownerId)}
    ensures JobCount(r, action, id, ownerId) <= 1
  {
    var key := KeyOf(action, id, ownerId);
    forall k | k in KeyedJobsFor(r, action, id, ownerId)
      ensures k == key
    {
      assert GetJobId(r.keyed[k].action, r.keyed[k].data) == Some(k);
    }
    SubsetOfSingleton(KeyedJobsFor(r, action, id, ownerId), key);
    NoUnkeyedWithKey(r.unkeyed, action, id, ownerId);
  }

  lemma AddJobKeepsWellKeyed(r: Registry, action: JobAction, data: JobData, options: JobOptions)
    requires WellKeyed(r)
    ensures WellKeyed(AddJob(r, action, data, options))
  {
    var r' := AddJob(r, action, data, options);
    if GetJobId(action, data).None? {
      forall i | 0 <= i < |r'.unkeyed|
        ensures GetJobId(r'.unkeyed[i].action, r'.unkeyed[i].data).None?
      {
        if i < |r.unkeyed| {
          assert r'.unkeyed[i] == r.unkeyed[i];
        }
      }
    }
  }

  lemma RemoveJobKeepsWellKeyed(r: Registry, jobId: Option<string>)
    requires WellKeyed(r)
    ensures WellKeyed(RemoveJob(r, jobId))
  {
  }

  /** After `addJob` there is exactly one job for the action, lot and owner,
      and it is the one just added. */
  lemma {:induction false} AddJobLeavesExactlyOne(r: Registry, action: JobAction, data: JobData, options: JobOptions)
    requires WellKeyed(r)
    requires data.id != 0 && data.ownerId != 0
    ensures var r' := AddJob(r, action, data, options);
            && JobCount(r', action, data.id, data.ownerId) == 1
            && r'.keyed[KeyOf(action, data.id, data.ownerId)] == MakeJob(action, data, options)
  {
    var r' := AddJob(r, action, data, options);
    var key := KeyOf(action, data.id, data.ownerId);
    AddJobKeepsWellKeyed(r, action, data, options);
    AtMostOneJob(r', action, data.id, data.ownerId);
    assert key in KeyedJobsFor(r', action, data.id, data.ownerId);
  }

  /** Rescheduling replaces: adding a job twice under one id leaves the same
      registry as adding only the second one. */
  lemma AddJobTwiceReplaces(r: Registry, action: JobAction, d1: JobData, o1: JobOptions, d2: JobData, o2: JobOptions)
    requires GetJobId(action, d1) == GetJobId(action, d2)
    requires GetJobId(action, d1).Some?
    ensures AddJob(AddJob(r, action, d1, o1), action, d2, o2) == AddJob(r, action, d2, o2)
  {
    var key := GetJobId(action, d1).value;
    var lhs := AddJob(AddJob(r, action, d1, o1), action, d2, o2);
    var rhs := AddJob(r, action, d2, o2);
    assert lhs.keyed == rhs.keyed;
  }

  /** Adds the same action for the same data once per element of `schedule`. */
  function AddJobs(r: Registry, action: JobAction, data: JobData, schedule: seq<JobOptions>): Registry
    decreases |schedule|
  {
    if |schedule| == 0 then r
    else AddJobs(AddJob(r, action, data, schedule[0]), action, data, schedule[1..])
  }

  /** However many times `addJob` is repeated for one action and lot, there is
      never more than one job for them. */
  lemma {:induction false} RepeatedAddJobNeverDuplicates(r: Registry, action: JobAction, data: JobData, schedule: seq<JobOptions>)
    requires WellKeyed(r)
    requires data.id != 0 && data.ownerId != 0
    ensures WellKeyed(AddJobs(r, action, data, schedule))
    ensures JobCount(AddJobs(r, action, data, schedule), action, data.id, data.ownerId) <= 1
    decreases |schedule|
  {
    if |schedule| == 0 {
      AtMostOneJob(r, action, data.id, data.ownerId);
    } else {
      AddJobKeepsWellKeyed(r, action, data, schedule[0]);
      RepeatedAddJobNeverDuplicates(AddJob(r, action, data, schedule[0]), action, data, schedule[1..]);
    }
  }

  /** `removeJob` of a job's own id leaves no job for its action, lot and owner. */
  lemma RemoveJobLeavesNone(r: Registry, action: JobAction, id: int, ownerId: int)
    requires WellKeyed(r)
    requires id != 0 && ownerId != 0
    ensures JobCount(RemoveJob(r, GetJobId(action, JobData(id, ownerId, None))), action, id, ownerId) == 0
  {
    var jobId := GetJobId(action, JobData(id, ownerId, None));
    var r' := RemoveJob(r, jobId);
    RemoveJobKeepsWellKeyed(r, jobId);
    AtMostOneJob(r', action, id, ownerId);
    assert KeyOf(action, id, ownerId) !in r'.keyed;
    assert KeyedJobsFor(r', action, id, ownerId) == {};
    NoUnkeyedWithKey(r'.unkeyed, action, id, ownerId);
  }
}

=== FILE: store.dfy ===
/** The repositories the services read and write: the `lots`, `bids` and
    `orders` tables as maps from primary key to row, auto-increment counters
    for new rows, and the job registry of the `statesFlow` queue. */
module Store {
  import opened Wrappers
  import opened Models
  import opened Queue

  datatype Store = Store(
    lots: map<int, Lot>,
    bids: map<int, Bid>,
    orders: map<int, Order>,
    jobs: Registry,
    nextLotId: int,
    nextBidId: int,
    nextOrderId: int)

  /** An empty database with an empty queue. */
  const Empty := Store(map[], map[], map[], EmptyRegistry, 1, 1, 1)

  /** Every row is stored under its own primary key, and every key is a
      positive number below the next value of its table's counter. */
  ghost predicate Valid(st: Store) {
    && st.nextLotId >= 1 && st.nextBidId >= 1 && st.nextOrderId >= 1
    && (forall id :: id in st.lots ==> 0 < id < st.nextLotId && st.lots[id].id == id)
    && (forall id :: id in st.bids ==> 0 < id < st.nextBidId && st.bids[id].id == id)
    && (forall id :: id in st.orders ==> 0 < id < st.nextOrderId && st.orders[id].id == id)
  }

  /** `findOne({ id })`: the row with that key, or nothing. */
  function Find<V>(m: map<int, V>, id: int): (r: Option<V>)
    ensures r.Some? <==> id in m
    ensures r.Some? ==> r.value == m[id]
  {
    if id in m then Some(m[id]) else None
  }

  /** `repo.save({ id, status })`: a partial save that writes only the status
      of an existing lot. A missing row stays missing, because an insert of
      only `id` and `status` is refused by the table's required columns. */
  function SaveStatus(lots: map<int, Lot>, id: int, status: LotStatus): (r: map<int, Lot>)
    ensures r.Keys == lots.Keys
    ensures id in lots ==> r[id] == lots[id].(status := status)
    ensures forall k :: k in lots && k != id ==> r[k] == lots[k]
  {
    if id in lots then lots[id := lots[id].(status := status)] else lots
  }

  /** `skip: limit * (page - 1), take: limit` over rows in table order. */
  function Paginate<T>(s: seq<T>, page: int, limit: int): (r: seq<T>)
    requires page >= 1 && limit >= 1
    ensures |r| <= limit
    ensures limit * (page - 1) + |r| <= |s| || |r| == 0
    ensures |r| < limit ==> limit * (page - 1) + |r| >= |s|
    ensures forall i :: 0 <= i < |r| ==> r[i] == s[limit * (page - 1) + i]
  {
    var skip := limit * (page - 1);
    if skip >= |s| then []
    else s[skip..if skip + limit <= |s| then skip + limit else |s|]
  }

  /** Pages cover every row: row `limit * (page - 1) + i` is item `i` of
      page `page`. */
  lemma PaginateCovers<T>(s: seq<T>, limit: int, page: int, i: int)
    requires limit >= 1 && page >= 1 && 0 <= i < limit
    requires limit * (page - 1) + i < |s|
    ensures i < |Paginate(s, page, limit)|
    ensures Paginate(s, page, limit)[i] == s[limit * (page - 1) + i]
  {
  }

  /** Row `j` sits at position `i` of page `page`. */
  lemma {:induction false} PageOf(j: nat, limit: int) returns (page: int, i: int)
    requires limit >= 1
    ensures page >= 1 && 0 <= i < limit
    ensures limit * (page - 1) + i == j
    decreases j
  {
    if j < limit {
      page, i := 1, j;
    } else {
      var p', i' := PageOf(j - limit, limit);
      page, i := p' + 1, i';
      assert limit * (page - 1) == limit * (p' - 1) + limit;
    }
  }

  /** `a` is `b` with some elements dropped and the rest in the same order. */
  predicate SubsequenceOf<T(==)>(a: seq<T>, b: seq<T>)
    decreases |b|
  {
    if |a| == 0 then true
    else if |b| == 0 then false
    else if a[0] == b[0] then SubsequenceOf(a[1..], b[1..])
    else SubsequenceOf(a, b[1..])
  }

  /** The rows that satisfy `keep`, in table order (a `where` clause). How
      often each row is kept and in what order are stated by `FilterCounts`
      and `FilterKeepsOrder`. */
  function Filter<T>(rows: seq<T>, keep: T -> bool): (r: seq<T>)
    ensures |r| <= |rows|
    ensures forall i :: 0 <= i < |r| ==> keep(r[i]) && r[i] in rows
    ensures forall x :: x in rows && keep(x) ==> x in r
  {
    if |rows| == 0 then []
    else
      var rest := Filter(rows[1..], keep);
      if keep(rows[0]) then [rows[0]] + rest else rest
  }

  /** Each passing row is kept exactly as often as it occurs, and no other
      row is kept. */
  lemma {:induction false} FilterCounts<T>(rows: seq<T>, keep: T -> bool, x: T)
    ensures multiset(Filter(rows, keep))[x] == (if keep(x) then multiset(rows)[x] else 0)
    decreases |rows|
  {
    if |rows| > 0 {
      assert rows == [rows[0]] + rows[1..];
      FilterCounts(rows[1..], keep, x);
    }
  }

  lemma FilterCountsAll<T>(rows: seq<T>, keep: T -> bool)
    ensures forall x :: multiset(Filter(rows, keep))[x] == (if keep(x) then multiset(rows)[x] else 0)
  {
    forall x {
      FilterCounts(rows, keep, x);
    }
  }

  /** The kept rows are in the order of the input. */
  lemma {:induction false} FilterKeepsOrder<T>(rows: seq<T>, keep: T -> bool)
    ensures SubsequenceOf(Filter(rows, keep), rows)
    decreases |rows|
  {
    if |rows| > 0 {
      var rest := Filter(rows[1..], keep);
      FilterKeepsOrder(rows[1..], keep);
      if keep(rows[0]) {
        assert ([rows[0]] + rest)[1..] == rest;
      }
    }
  }
}

=== FILE: wrappers.dfy ===
/** Optional values: the model's stand-in for JavaScript's `undefined`/`null`. */
module Wrappers {

  datatype Option<+T> = None | Some(value: T) {

    /** The carried value, or `default` when there is none. */
    function GetOr(default: T): T {
      match this
      case Some(v) => v
      case None => default
    }
  }
}
